=== FILE: README.md ===
# iono_pi data acquisition core, modelled in Dafny

This project models the data-acquisition core of the Iono Pi controller
scripts. It has two parts:

- `IonoWrapper` (from `iono_wrapper.py`) owns the temperature window. It
  persists three record streams to day-partitioned files: the raw poll
  block, the per-window aggregate and the digital-input event.
- The polling thread of `pydas.py` runs the wrapper. Every pass it checks
  whether the clock is a whole multiple of `store_time`, and if so calls
  the aggregate store. It then checks `polling_time`, and if that matches
  it pulses the outputs, reads the board, calls the raw-block store,
  appends the temperature and resets the input events.

Modules, one per concept:

| module | file | what it holds |
|---|---|---|
| `Wrappers` | wrappers.dfy | `Option` and `Result` |
| `Text` | text.dfy | tab-joined lines and their reader (`str.join` / `str.split`); `str(int)`; zero-padded digits |
| `Clock` | clock.dfy | `datetime` fields and the `strftime` layouts `%Y-%m-%d`, `%Y-%m-%d %H:%M:%S`, `%Y-%m-%d %H:%M:00` and `%Y-%m-%d %H:%M:%S.%f` |
| `Stats` | stats.dfy | `_mean`, `_stddev` (stated as a variance), `min`, `max` |
| `Channels` | channels.dfy | the channel dictionaries the board layer fills; Python truthiness of a reading |
| `Rows` | rows.dfy | the raw block, aggregate and event records; a reader that parses a raw block back into sections |
| `IonoWrapper` | iono_wrapper.dfy | `os.path.join`, the day file names, `append_temperature`, `store_data_csv`, `store_ced_data_csv`, `store_event` |
| `Pydas` | pydas.dfy | the configuration of `main`, the `int(x) == x` boundary test, one pass of the loop as `Step`, runs of passes as `Run` |

How the model represents the source:

- **Files.** The file system is a `map<string, seq<string>>` from file name
  to lines. Opening for append creates a missing file. Every write is a
  whole sequence of newline-terminated lines.
- **Board calls.** The calls into the `Iono` base class (`set_*`, `get_*`,
  `reset_digital_input_events`) are recorded as actions in a trace, in the
  order the pass makes them. The readings the `get_*` calls leave behind
  arrive as a `Snapshot` in the `Tick` of the pass.
- **Clock.** `datetime.now()` becomes a `DateTime` parameter.
  `unix_time(now)` becomes an integer count of microseconds.
- **I/O failures.** Whether `open`/`write` succeeds is a boolean parameter.
  A failure is caught by the store's `except` clause.
- **Uncaught crash.** `append_temperature` subscripts `one_wire_inputs[0]`
  without a guard. On an empty one-wire list the `IndexError` escapes into
  the polling thread and ends it. The model records this as `AppendFailed`
  and stops the run, with the LED, relay 1 and open collector 1 left on.
  This is the only way the modelled loop stops.
- **Pass order.** `polling` checks the aggregation boundary before the
  polling boundary (pydas.py:33-63). On a shared boundary, the aggregate
  therefore covers the window from before the pass, and the reading taken by
  that pass starts the next window.
- **Events.** `polling` never calls `store_event`. In the source it is
  reached only through `parse_event`, which the base class calls. So
  `StoreEvent` is modelled on its own and is not part of `Step`.
- **Zero readings.** A reading of exactly `0.0` is falsy in Python. It is
  written as `None` in the raw block and never joins the temperature window.
  The model keeps this behaviour.

## Model

| member | source | states |
|---|---|---|
| `Stats.Min` | iono_wrapper.py:198 | `min` of a non-empty window is one of its samples and no larger than any sample |
| `Stats.Max` | iono_wrapper.py:200 | `max` of a non-empty window is one of its samples and no smaller than any sample |
| `Stats.Mean` | iono_wrapper.py:34-40 | `_mean` fails exactly on the empty list; otherwise the mean times the length is the sum |
| `Stats.MeanBetween` | iono_wrapper.py:196-200 | the mean of a non-empty window lies between its min and max |
| `Stats.SumBetween` | iono_wrapper.py:40 | the sum of a window lies between n·min and n·max |
| `Stats.AccumulateSquaredDeviations` | iono_wrapper.py:46-49 | the loop `data_sum += pow(item - data_mean, 2)` ends with Σ (x − m)² over the list |
| `Stats.Variance` | iono_wrapper.py:42-51 | `_stddev` squared: fails on an empty list (from `_mean`) and on one sample (division by `len - 1 == 0`); for two or more samples it is non-negative and times n − 1 gives Σ (x − mean)² |
| `Stats.DeviationsNonNegative` | iono_wrapper.py:48-49 | the accumulated sum of squares is never negative, so the `sqrt` argument is valid |
| `Stats.ExpandSquaredDeviations` | iono_wrapper.py:48-49 | Σ (x − m)² = Σ x² − 2m Σ x + n m² |
| `Stats.OnePassDeviations` | iono_wrapper.py:42-51 | an independent one-pass formula for the numerator: n Σ (x − mean)² = n Σ x² − (Σ x)² |
| `Stats.DeviationsZero` | iono_wrapper.py:48-49 | Σ (x − m)² is zero exactly when every sample equals m |
| `Stats.ZeroVarianceIffConstant` | iono_wrapper.py:42-51 | for two or more samples the variance is zero exactly when the window is constant |
| `Stats.TwoSampleWindow` | iono_wrapper.py:196-202 | the window [20.0, 22.0] has mean 21, min 20, max 22 and variance 2 (standard deviation ≈ 1.41) |
| `Text.Split` | iono_wrapper.py:95-99 | the reader's split of a line gives at least one field, none holding the separator |
| `Text.JoinSplit` | iono_wrapper.py:95-99 | joining the pieces of a split line restores the line |
| `Text.SplitJoin` | iono_wrapper.py:95-99 | fields without a tab, joined by tabs, split back into exactly those fields |
| `Text.JoinKeepsLine` | iono_wrapper.py:95-99 | a tab-joined record of plain fields holds no newline, so it stays one line |
| `Text.NatToString` | iono_wrapper.py:96 | `str(n)` of a non-negative int is a non-empty string of digits with no leading zero |
| `Text.NatToStringValue` | iono_wrapper.py:96 | reading `str(n)` back gives n |
| `Text.Padded` | iono_wrapper.py:87 | a `strftime` numeric field has exactly its width in digits |
| `Text.PaddedValue` | iono_wrapper.py:87 | reading a zero-padded field back gives its number |
| `Text.IntToString` | iono_wrapper.py:96 | `str(i)` is a plain non-empty field that starts with `-` exactly for negative i |
| `Text.IntToStringValue` | iono_wrapper.py:194 | reading `str(dbid)` back gives the id |
| `Clock.DateStamp` | iono_wrapper.py:154 | `%Y-%m-%d` is ten characters: four-digit year, dash, two-digit month, dash, two-digit day |
| `Clock.TimeOfDay` | iono_wrapper.py:87 | `%H:%M:%S` is eight characters: hour, minute and second, two digits each, separated by colons |
| `Clock.SecondStamp` | iono_wrapper.py:87 | the raw-poll stamp `%Y-%m-%d %H:%M:%S` is the date stamp, a space and the time of day |
| `Clock.MinuteStamp` | iono_wrapper.py:192 | the aggregate stamp `%Y-%m-%d %H:%M:00` keeps the day, hour and minute and writes the seconds as `00` |
| `Clock.MicroStamp` | iono_wrapper.py:264 | the event stamp is the second stamp, a dot and six microsecond digits |
| `Clock.StampsArePlain` | iono_wrapper.py:87 | every stamp is a single plain field starting with a digit, so it is never taken for a heading |
| `Clock.DateStampInjective` | iono_wrapper.py:152-155 | two times with the same date stamp fall on the same calendar day |
| `Clock.SecondStampInjective` | iono_wrapper.py:87 | two times with the same raw-poll stamp agree on everything but the microseconds |
| `Channels.ScalarText` | iono_wrapper.py:97-98 | `str` of a status value is a non-empty plain field |
| `Channels.ScalarRoundTrip` | iono_wrapper.py:97-98 | a written status (`None`, `True`, `False` or an int) reads back as itself |
| `Rows.ValueText` | iono_wrapper.py:109-112 | a truthy reading is written rounded; `None` or zero is written as `None` |
| `Rows.DigitalSection` | iono_wrapper.py:90-99 | the digital section has its heading and one record per digital input, in order |
| `Rows.AnalogSection` | iono_wrapper.py:102-113 | the analog section has its heading and one record per analog input, in order |
| `Rows.OutputSection` | iono_wrapper.py:116-135 | a relay or open-collector section has its heading and one record per output, in order |
| `Rows.OneWireSection` | iono_wrapper.py:138-149 | the 1wire section has its heading and one record per probe, in order |
| `Rows.PollSections` | iono_wrapper.py:89-149 | the block has five sections: digital, analog, relay, open collector, 1wire, each with one record per channel of its category |
| `Rows.SectionLines` | iono_wrapper.py:90-99 | a section is written as its heading line, then one line per record |
| `Rows.PollBlock` | iono_wrapper.py:86-149 | the block exists exactly when every one-wire entry is present (a `None` entry raises before anything is written) and is then the rendered five sections |
| `Rows.ParseRender` | iono_wrapper.py:89-149 | reading written sections back gives exactly those sections: the same headings in the same order, and the same records field for field |
| `Rows.PollSectionsGood` | iono_wrapper.py:89-149 | with plain channel names and a plain number format, every record of the block is readable |
| `Rows.PollSectionsShape` | iono_wrapper.py:95-149 | digital records have 5 fields and all other records have 4; an analog or one-wire field is the rounded reading when truthy and `None` otherwise |
| `Rows.PollBlockReadsBack` | iono_wrapper.py:89-149 | a reader of the raw block finds the five headings in order and under each exactly the records of that category |
| `Rows.PollBlockLines` | iono_wrapper.py:89-149 | no line of the block holds a newline, so the written text splits into exactly these lines |
| `Rows.RenderLines` | iono_wrapper.py:89-149 | no rendered line of well-formed sections holds a newline |
| `Rows.AggregateFields` | iono_wrapper.py:192-202 | the aggregate record has six fields |
| `Rows.EventFields` | iono_wrapper.py:264-267 | the event record has four fields |
| `Rows.AggregateReadsBack` | iono_wrapper.py:192-202 | the aggregate line is one line that splits back into its six fields |
| `Rows.EventReadsBack` | iono_wrapper.py:264-267 | the event line is one line that splits back into stamp, id, event status and name |
| `IonoWrapper.Append` | iono_wrapper.py:160-161 | appending adds the lines to the end of one file, creating it when missing, and leaves every other file alone |
| `IonoWrapper.AppendGrows` | iono_wrapper.py:160-161 | after an append every file still holds its old lines as a prefix |
| `IonoWrapper.PathJoin` | iono_wrapper.py:152-155 | `os.path.join`: an absolute name replaces the directory; otherwise a slash is inserted unless the directory is empty or ends with one |
| `IonoWrapper.DataFilePerDay` | iono_wrapper.py:152-155 | two times share a raw data file exactly when they fall on the same calendar day |
| `IonoWrapper.EventFileIsNotDataFile` | iono_wrapper.py:271-274 | an event file is never a raw data file: its name is seven characters (`events_`) longer |
| `IonoWrapper.AppendTemperature` | iono_wrapper.py:69-73 | on a non-empty one-wire list the window grows by exactly one sample, the reading, exactly when the first entry is present and its value truthy, and stays as it was otherwise; on an empty list the call raises |
| `IonoWrapper.AppendTemperatureReading` | iono_wrapper.py:69-73 | on a non-empty one-wire list the new window is the old one followed by the reading, if there is one |
| `IonoWrapper.StoreDataCsv` | iono_wrapper.py:76-167 | the store succeeds exactly when every one-wire entry is present and the write succeeds; it then appends the block to the day's data file, and otherwise changes nothing |
| `IonoWrapper.StoreDataCsvWritesBlock` | iono_wrapper.py:152-163 | a successful store changes no other file, keeps the data file's old lines, and its new lines read back as the five sections |
| `IonoWrapper.WindowAggregate` | iono_wrapper.py:196-202 | an empty window fails; a one-sample window fails with the division by zero; otherwise the aggregate carries the window's mean, min, max and variance, with min ≤ mean ≤ max |
| `IonoWrapper.WindowStatistics` | iono_wrapper.py:196-202 | values taken from the statistics of a window of two or more samples summarise it, with the mean between min and max |
| `IonoWrapper.CedResult` | iono_wrapper.py:173-220 | the failures in the code's order: empty window, empty one-wire list, `None` first entry, missing `db_id`, one sample, failed write; success exactly for two or more samples, a present first probe with a `db_id`, and a good write |
| `IonoWrapper.StoreCedDataCsv` | iono_wrapper.py:169-225 | the window is empty afterwards on every path; a failure writes nothing; a success appends exactly one aggregate line to the day's file under `ftp_path` |
| `IonoWrapper.AggregateRow` | iono_wrapper.py:186-202 | a written aggregate carries the call's time, the first probe's `db_id` and the window's mean, min, max and variance |
| `IonoWrapper.AggregateLineReadsBack` | iono_wrapper.py:192-214 | with two or more samples, a `db_id` and a good write, the aggregate file gains one line whose fields are the minute stamp, the id and the four rendered numbers |
| `IonoWrapper.StoreEvent` | iono_wrapper.py:248-283 | `None` or a failed write changes nothing; otherwise one event line is appended to the day's event file |
| `IonoWrapper.StoreEventWritesOneLine` | iono_wrapper.py:254-280 | a stored event adds one line to the event file and nothing elsewhere, and that line splits into microsecond stamp, id, `status_ev` and name |
| `Pydas.TruncExact` | pydas.py:33 | `int(x) == x` holds exactly when x is a whole number |
| `Pydas.BoundaryIsMultiple` | pydas.py:33 | the test `int(t / p) == t / p` holds exactly when the clock reading is a whole multiple of p seconds |
| `Pydas.AggregationTicksPoll` | pydas.py:84-90 | with `polling_time` 10 and `store_time` 60, every aggregation pass is also a polling pass |
| `Pydas.DistinctSubdirectories` | pydas.py:114-122 | names under two relative sub-directories that start with different letters are different paths |
| `Pydas.AggregateFileApart` | pydas.py:84-122 | with `main`'s configuration an aggregate file is never a raw data file or an event file |
| `Pydas.Init` | iono_wrapper.py:23-32 | the constructor fails exactly on an empty one-wire list (`IndexError`) or a `None` first entry (`TypeError`); otherwise the window is empty, the thread runs, and the first probe carries `db_id` 1 while it and the other probes are otherwise unchanged; the outputs start off (an assumption) |
| `Pydas.PollOrder` | pydas.py:47-73 | a completed poll makes fourteen calls in this order: three outputs on, five reads, raw store, append, three outputs off, event reset; the reset is the last call |
| `Pydas.StepTrace` | pydas.py:21-76 | on a running pass whose poll, if any, finds a non-empty one-wire list: the aggregate store over the previous window when on a `store_time` boundary, then the poll's calls when on a `polling_time` boundary |
| `Pydas.PollCounts` | pydas.py:47-73 | a poll makes exactly one raw store, exactly one event reset and no aggregate store |
| `Pydas.CallCounts` | pydas.py:33-73 | the calls of a pass count one aggregate store per aggregation boundary and one raw store and one reset per polling boundary |
| `Pydas.StepCounts` | pydas.py:33-73 | on a running pass whose poll, if any, finds a non-empty one-wire list: `store_ced_data_csv` is called exactly on a `store_time` boundary, and `store_data_csv` is called and events are reset exactly on a `polling_time` boundary; whether a call writes anything is stated by the store members |
| `Pydas.CrashTrace` | pydas.py:41-63 | a polling pass that finds an empty one-wire list makes the aggregate store if due, the three outputs on, the five reads and the raw store, and then `append_temperature` raises: the thread ends with the outputs on |
| `Pydas.CrashPass` | pydas.py:41-63 | on that crashing pass the aggregate count grows on a `store_time` boundary, the raw-store count grows by one, and the event-reset count does not change |
| `Pydas.SharedBoundary` | pydas.py:33-63 | on a shared boundary `store_ced_data_csv` is called first, over the window from before the pass, and the pass's own reading starts the new window |
| `Pydas.StepWindow` | pydas.py:33-63 | after a pass the window is emptied if it aggregated, then extended by the poll's reading if it polled |
| `Pydas.StepRunning` | pydas.py:24-76 | among the modelled calls, a pass stops the thread exactly when it polls and finds an empty one-wire list; no failing store stops it |
| `Pydas.QuietStep` | pydas.py:24-76 | a pass on neither boundary changes nothing, and a stopped thread does nothing |
| `Pydas.StepOutputs` | pydas.py:47-70 | after a completed poll the LED, relay 1 and open collector 1 are off; a pass without a poll leaves them as they were |
| `Pydas.AggregateGrows` | pydas.py:38 | an aggregation only appends, to files and trace |
| `Pydas.PollGrows` | pydas.py:47-73 | a poll only appends, to files and trace |
| `Pydas.StepGrows` | pydas.py:24-76 | files and trace only grow: every file keeps its old lines as a prefix |
| `Pydas.AggregateControl` | pydas.py:38 | an aggregation empties the window and leaves the outputs, the one-wire list and the running flag alone |
| `Pydas.PollControl` | pydas.py:47-73 | the window, outputs and running flag after a poll depend only on the one-wire list, never on the files or on the write |
| `Pydas.WritesDoNotSteer` | pydas.py:24-76 | whether writes succeed never changes the window, the outputs or whether the thread keeps running |
| `Pydas.RunCollects` | pydas.py:41-63 | on a run without an aggregation whose polls all find a non-empty one-wire list, the thread keeps running and its window gains exactly the truthy first-probe readings of its polls, in order |
| `Pydas.WindowSinceAggregation` | pydas.py:33-63 | after an aggregation pass and passes that do not aggregate, the window holds exactly the readings of that stretch's polls, starting with the aggregation pass's own |
| `Pydas.NextAggregateSamples` | pydas.py:33-63 | the next aggregate is taken over exactly the truthy readings polled since the previous aggregation, that pass's own included |

## Left out

- The `Iono` base class and the `functions` module are not part of this model. The `set_*`, `get_*` and `reset_digital_input_events` calls are trace actions. The readings they return are inputs. `cleanup`, `create_log`, `clear_screen` and the caller of `parse_event` are not modelled.
- `parse_event` is not modelled. It only logs and forwards to `store_event`, which is modelled.
- `round`, `str` of a float and `sqrt` are kept abstract as the `Format` record. The aggregate carries the variance, whose square root `Format.stddev` renders.
- Stats.Mean: samples are exact reals, not binary floating point, so the rounding error of `sum` and `/` is not modelled.
- Stats.Variance: samples are exact reals, so the rounding error of `pow` and `/` is not modelled, and the square root is left to `Format.stddev`.
- Pydas.BoundaryIsMultiple: the clock reading is an exact whole number of microseconds and the division is exact; the float rounding of `ptime / period` is not modelled.
- Logging is not modelled. It has no effect on the stored data.
- Threading is not modelled: the daemon thread, the `while True` of `main`, `KeyboardInterrupt` and the `time.sleep` durations are timing and concurrency, not logic.
- Directory creation in `main` (pydas.py:115-121) is not modelled. Only the resulting paths are, in `MainConfig`.
- `os.path.dirname(os.path.realpath(__file__))` is not modelled. The script directory is a parameter.
- The calendar validity of a date (for example 31 February) is not checked. The day field only ranges over 1-31.
- A write that fails part-way through is not modelled. A write either appends the whole text or raises before writing anything.
- A digital, analog, relay or open-collector entry of the board is never `None`; the model has no representation for one. Only one-wire entries may be `None`. In `store_data_csv` a `None` one-wire entry raises `TypeError` at `owi['name']` (iono_wrapper.py:140) and the `except` catches it. `store_ced_data_csv` returns `False` for a `None` first entry (iono_wrapper.py:182-184).
- Pydas.Init: when the constructor raises, `main` logs the error and then calls `module.cleanup()` on `None` in its `finally` (pydas.py:139-142); the model only reports that no wrapper is built. The LED, relay 1 and open collector 1 are assumed off at start, since their initial state belongs to the base class.
- The board calls and `unix_time` are assumed never to raise, and so are the `owi['value']` reads and the `float()` conversion of a present one-wire entry (iono_wrapper.py:70-73). In the source, an exception from any of them also escapes `while True` (pydas.py:24-76) and ends the thread.
- Each poll replaces the one-wire list with what `get_one_wire_input` returns. The `db_id` that the constructor sets therefore reaches the next aggregate only if the base class keeps that key on the first probe. The model takes the list from the `Tick` as given, so an aggregate carries `db_id` 1 only when the snapshot does.
- Years run from 1000 to 9999, so that `%Y` always gives four digits, as it does for every time `datetime.now()` returns.
- Pydas.Step: the periods are non-zero (`ValidPeriods`), as in `main`'s configuration of 10 and 60 seconds; a zero `store_time` or `polling_time` would raise `ZeroDivisionError` at pydas.py:33 or pydas.py:41 and end the thread.

=== FILE: channels.dfy ===
/** The channel readings the Iono Pi board object holds after its `get_*`
    calls: one record per channel, as the dictionaries of the base class
    carry them. Only the keys the persister reads are modelled. */
module Channels {
  import opened Wrappers
  import opened Text

  /** The value of a `status` or `status_ev` key: Python `None`, a bool or
      an int, whichever the board layer stored. */
  datatype Scalar = PyNone | PyBool(b: bool) | PyInt(i: int)

  /** `str(v)` of a status value. */
  function ScalarText(v: Scalar): (r: string)
    ensures Plain(r) && |r| >= 1
  {
    match v
    case PyNone => "None"
    case PyBool(b) => if b then "True" else "False"
    case PyInt(i) => IntToString(i)
  }

  /** Reading a status field back, as a consumer of the data file would. */
  function ParseScalar(r: string): Option<Scalar> {
    if r == "None" then Some(PyNone)
    else if r == "True" then Some(PyBool(true))
    else if r == "False" then Some(PyBool(false))
    else if |r| > 1 && r[0] == '-' && AllDigits(r[1..]) then Some(PyInt(-(DigitsValue(r[1..]) as int)))
    else if |r| > 0 && AllDigits(r) then Some(PyInt(DigitsValue(r)))
    else None
  }

  /** A status field reads back as the status that was written. */
  lemma ScalarRoundTrip(v: Scalar)
    ensures ParseScalar(ScalarText(v)) == Some(v)
  {
    if v.PyInt? {
      var r := IntToString(v.i);
      IntToStringValue(v.i);
      assert IsDigit(r[0]) || r[0] == '-' by {
        if r[0] != '-' {
          assert AllDigits(r);
        }
      }
      assert r != "None" && r != "True" && r != "False" by {
        assert r[0] != 'N' && r[0] != 'T' && r[0] != 'F';
      }
    }
  }

  datatype DigitalInput = DigitalInput(id: int, name: string, status: Scalar, statusEv: Scalar)

  /** An analog channel; `value` is `None` until the board has read it. */
  datatype AnalogInput = AnalogInput(id: int, name: string, value: Option<real>)

  /** A relay or open-collector output channel. */
  datatype OutputChannel = OutputChannel(id: int, name: string, status: Scalar)

  /** A one-wire temperature probe. `dbId` is the `db_id` key, which the
      wrapper's constructor sets on the first probe only. */
  datatype OneWireInput = OneWireInput(id: int, name: string, value: Option<real>, dbId: Option<int>)

  /** What the five `get_*` calls leave in the board object. A one-wire
      entry may itself be `None`. */
  datatype Snapshot = Snapshot(
    digital: seq<DigitalInput>,
    analog: seq<AnalogInput>,
    relays: seq<OutputChannel>,
    openCollectors: seq<OutputChannel>,
    oneWire: seq<Option<OneWireInput>>)

  /** Python truthiness of a reading: `None` and `0.0` are false. */
  predicate Truthy(v: Option<real>) {
    v.Some? && v.value != 0.0
  }

  /** Every one-wire entry is present, so reading its keys cannot fail. */
  predicate AllPresent(ws: seq<Option<OneWireInput>>) {
    forall i :: 0 <= i < |ws| ==> ws[i].Some?
  }

  /** The channel names are single plain fields. */
  predicate NamesPlain(s: Snapshot) {
    && (forall i :: 0 <= i < |s.digital| ==> Plain(s.digital[i].name))
    && (forall i :: 0 <= i < |s.analog| ==> Plain(s.analog[i].name))
    && (forall i :: 0 <= i < |s.relays| ==> Plain(s.relays[i].name))
    && (forall i :: 0 <= i < |s.openCollectors| ==> Plain(s.openCollectors[i].name))
    && (forall i :: 0 <= i < |s.oneWire| ==> s.oneWire[i].Some? ==> Plain(s.oneWire[i].value.name))
  }
}

=== FILE: clock.dfy ===
/** Local wall-clock time as `datetime.now()` returns it, and the three
    `strftime` layouts the persister writes. */
module Clock {
  import opened Text

  type Year = y: int | 1000 <= y <= 9999 witness 2000
  type Month = m: int | 1 <= m <= 12 witness 1
  type Day = d: int | 1 <= d <= 31 witness 1
  type Hour = h: int | 0 <= h < 24
  type Minute = m: int | 0 <= m < 60
  type Second = s: int | 0 <= s < 60
  type Microsecond = u: int | 0 <= u < 1000000

  datatype DateTime = DateTime(
    year: Year, month: Month, day: Day,
    hour: Hour, minute: Minute, second: Second, micro: Microsecond)

  lemma Widths()
    ensures Pow10(2) == 100 && Pow10(4) == 10000 && Pow10(6) == 1000000
  {}

  function Two(n: int): (r: string)
    requires 0 <= n < 100
    ensures |r| == 2 && AllDigits(r)
  {
    Widths();
    Padded(n, 2)
  }

  function Four(n: int): (r: string)
    requires 0 <= n < 10000
    ensures |r| == 4 && AllDigits(r)
  {
    Widths();
    Padded(n, 4)
  }

  function Six(n: int): (r: string)
    requires 0 <= n < 1000000
    ensures |r| == 6 && AllDigits(r)
  {
    Widths();
    Padded(n, 6)
  }

  /** A two- or four-digit field reads back as the number it renders. */
  lemma TwoValue(n: int)
    requires 0 <= n < 100
    ensures DigitsValue(Two(n)) == n
  {
    Widths();
    PaddedValue(n, 2);
  }

  lemma FourValue(n: int)
    requires 0 <= n < 10000
    ensures DigitsValue(Four(n)) == n
  {
    Widths();
    PaddedValue(n, 4);
  }

  lemma TwoZero()
    ensures Two(0) == "00"
  {
    Widths();
    assert Padded(0, 1) == "0";
  }

  /** `%Y-%m-%d`, the day that names a day-partitioned file. */
  function DateStamp(t: DateTime): (r: string)
    ensures |r| == 10 && r[4] == '-' && r[7] == '-'
    ensures r[..4] == Four(t.year) && r[5..7] == Two(t.month) && r[8..] == Two(t.day)
  {
    var y := Four(t.year);
    var r := y + "-" + Two(t.month) + "-" + Two(t.day);
    assert r[..4] == y && r[5..7] == Two(t.month) && r[8..] == Two(t.day);
    r
  }

  /** `%H:%M:%S` */
  function TimeOfDay(t: DateTime): (r: string)
    ensures |r| == 8 && r[2] == ':' && r[5] == ':'
    ensures r[..2] == Two(t.hour) && r[3..5] == Two(t.minute) && r[6..] == Two(t.second)
  {
    var r := Two(t.hour) + ":" + Two(t.minute) + ":" + Two(t.second);
    assert r[..2] == Two(t.hour) && r[3..5] == Two(t.minute) && r[6..] == Two(t.second);
    r
  }

  /** `%Y-%m-%d %H:%M:%S`, the raw-poll timestamp. */
  function SecondStamp(t: DateTime): (r: string)
    ensures |r| == 19 && r[..10] == DateStamp(t) && r[10] == ' ' && r[11..] == TimeOfDay(t)
  {
    var r := DateStamp(t) + " " + TimeOfDay(t);
    assert r[..10] == DateStamp(t) && r[11..] == TimeOfDay(t);
    r
  }

  /** `%Y-%m-%d %H:%M:00`, the aggregate timestamp: the time truncated to
      the start of its minute, on the same day, hour and minute. */
  function MinuteStamp(t: DateTime): (r: string)
    ensures |r| == 19 && r[..10] == DateStamp(t)
    ensures r[11..13] == Two(t.hour) && r[14..16] == Two(t.minute) && r[16..] == ":00"
  {
    var z := t.(second := 0, micro := 0);
    var r := SecondStamp(z);
    var h := TimeOfDay(z);
    assert DateStamp(z) == DateStamp(t);
    TwoZero();
    assert r[11..13] == h[..2] && r[14..16] == h[3..5] && r[16..] == h[5..];
    assert h[5..] == ":00" by {
      assert h[6..] == "00";
      assert h[5..] == [h[5]] + h[6..];
    }
    r
  }

  /** `%Y-%m-%d %H:%M:%S.%f`, the event timestamp with six microsecond digits. */
  function MicroStamp(t: DateTime): (r: string)
    ensures |r| == 26 && r[..19] == SecondStamp(t) && r[19] == '.'
    ensures r[20..] == Six(t.micro)
  {
    var s := SecondStamp(t);
    var tail := "." + Six(t.micro);
    assert tail[1..] == Six(t.micro);
    var r := s + tail;
    assert r[..19] == s && r[19..] == tail;
    r
  }

  lemma DigitsArePlain(s: string)
    requires AllDigits(s)
    ensures Plain(s)
  {
  }

  lemma DatePlain(t: DateTime)
    ensures Plain(DateStamp(t)) && IsDigit(DateStamp(t)[0])
  {
    DigitsArePlain(Four(t.year));
    DigitsArePlain(Two(t.month));
    DigitsArePlain(Two(t.day));
    assert DateStamp(t) == Four(t.year) + "-" + Two(t.month) + "-" + Two(t.day);
  }

  lemma TimeOfDayPlain(t: DateTime)
    ensures Plain(TimeOfDay(t))
  {
    DigitsArePlain(Two(t.hour));
    DigitsArePlain(Two(t.minute));
    DigitsArePlain(Two(t.second));
    assert TimeOfDay(t) == Two(t.hour) + ":" + Two(t.minute) + ":" + Two(t.second);
  }

  lemma SecondPlain(t: DateTime)
    ensures Plain(SecondStamp(t)) && IsDigit(SecondStamp(t)[0])
  {
    DatePlain(t);
    TimeOfDayPlain(t);
    assert SecondStamp(t) == DateStamp(t) + " " + TimeOfDay(t);
  }

  lemma MicroPlain(t: DateTime)
    ensures Plain(MicroStamp(t)) && IsDigit(MicroStamp(t)[0])
  {
    SecondPlain(t);
    DigitsArePlain(Six(t.micro));
    assert MicroStamp(t) == SecondStamp(t) + "." + Six(t.micro);
  }

  /** Every stamp is a single plain field that starts with a digit, so it can
      never be mistaken for a section heading or split into two fields. */
  lemma StampsArePlain(t: DateTime)
    ensures Plain(DateStamp(t))
    ensures Plain(SecondStamp(t)) && IsDigit(SecondStamp(t)[0])
    ensures Plain(MinuteStamp(t)) && IsDigit(MinuteStamp(t)[0])
    ensures Plain(MicroStamp(t)) && IsDigit(MicroStamp(t)[0])
  {
    DatePlain(t);
    SecondPlain(t);
    SecondPlain(t.(second := 0, micro := 0));
    MicroPlain(t);
  }

  /** Reading a raw-poll timestamp back recovers the time to the second:
      two times with the same stamp agree on every field but microseconds. */
  lemma {:induction false} SecondStampInjective(a: DateTime, b: DateTime)
    requires SecondStamp(a) == SecondStamp(b)
    ensures a.(micro := 0) == b.(micro := 0)
  {
    var sa, sb := SecondStamp(a), SecondStamp(b);
    assert DateStamp(a) == sa[..10] == sb[..10] == DateStamp(b);
    assert TimeOfDay(a) == sa[11..] == sb[11..] == TimeOfDay(b);
    DateStampInjective(a, b);
    var ha, hb := TimeOfDay(a), TimeOfDay(b);
    TwoValue(a.hour); TwoValue(b.hour);
    TwoValue(a.minute); TwoValue(b.minute);
    TwoValue(a.second); TwoValue(b.second);
    assert Two(a.hour) == ha[..2] == hb[..2] == Two(b.hour);
    assert Two(a.minute) == ha[3..5] == hb[3..5] == Two(b.minute);
    assert Two(a.second) == ha[6..] == hb[6..] == Two(b.second);
  }

  /** Two times on different calendar days never share a date stamp, so they
      never share a day-partitioned file. */
  lemma DateStampInjective(a: DateTime, b: DateTime)
    requires DateStamp(a) == DateStamp(b)
    ensures a.year == b.year && a.month == b.month && a.day == b.day
  {
    var da, db := DateStamp(a), DateStamp(b);
    FourValue(a.year); FourValue(b.year);
    TwoValue(a.month); TwoValue(b.month);
    TwoValue(a.day); TwoValue(b.day);
    assert Four(a.year) == da[..4] == db[..4] == Four(b.year);
    assert Two(a.month) == da[5..7] == db[5..7] == Two(b.month);
    assert Two(a.day) == da[8..] == db[8..] == Two(b.day);
  }
}

=== FILE: iono_wrapper.dfy ===
/** The persister of `IonoWrapper`: the temperature window, the raw poll
    block, the per-window aggregate and the event record, each appended to a
    day-partitioned file. The file system is a map from file name to the
    lines the file holds; opening a file for append creates it when missing. */
module IonoWrapper {
  import opened Wrappers
  import opened Text
  import opened Clock
  import opened Stats
  import opened Channels
  import opened Rows

  /** The `config` dictionary the wrapper reads. */
  datatype Config = Config(
    pollingTime: int, storeTime: int, dataPath: string, ftpPath: string, fileHeader: string)

  type Files = map<string, seq<string>>

  /** The lines a file holds; a missing file holds none. */
  function Content(files: Files, name: string): seq<string> {
    if name in files then files[name] else []
  }

  /** Appending lines to one file, creating it when missing. */
  function Append(files: Files, name: string, lines: seq<string>): (r: Files)
    ensures r.Keys == files.Keys + {name}
    ensures Content(r, name) == Content(files, name) + lines
    ensures forall n :: n != name ==> Content(r, n) == Content(files, n)
  {
    files[name := Content(files, name) + lines]
  }

  /** Every file of `f` is still there in `g`, its lines a prefix of the lines in `g`. */
  predicate Grows(f: Files, g: Files) {
    forall n :: n in f ==> n in g && f[n] <= g[n]
  }

  lemma AppendGrows(files: Files, name: string, lines: seq<string>)
    ensures Grows(files, Append(files, name, lines))
  {
    forall n | n in files
      ensures n in Append(files, name, lines) && files[n] <= Append(files, name, lines)[n]
    {
      assert Content(files, n) == files[n];
    }
  }

  lemma GrowsTransitive(f: Files, g: Files, h: Files)
    requires Grows(f, g) && Grows(g, h)
    ensures Grows(f, h)
  {}

  // ------------------------------------------------------------ file names

  /** `os.path.join(a, b)` on POSIX: an absolute `b` replaces `a`; otherwise
      a slash is inserted unless `a` is empty or already ends with one. */
  function PathJoin(a: string, b: string): (r: string)
    ensures |b| > 0 && b[0] == '/' ==> r == b
    ensures !(|b| > 0 && b[0] == '/') && (a == [] || a[|a| - 1] == '/') ==> r == a + b
    ensures !(|b| > 0 && b[0] == '/') && !(a == [] || a[|a| - 1] == '/') ==> r == a + "/" + b
  {
    if |b| > 0 && b[0] == '/' then b
    else if a == [] || a[|a| - 1] == '/' then a + b
    else a + "/" + b
  }

  /** The part `os.path.join(a, b)` puts in front of `b`. */
  function JoinPrefix(a: string, b: string): string {
    if |b| > 0 && b[0] == '/' then []
    else if a == [] || a[|a| - 1] == '/' then a
    else a + "/"
  }

  lemma PathJoinParts(a: string, b: string)
    ensures PathJoin(a, b) == JoinPrefix(a, b) + b
  {
    if |b| > 0 && b[0] == '/' {
      assert [] + b == b;
    }
  }

  /** `file_header + "_" + YYYY-MM-DD + ".dat"`. */
  function DayFile(header: string, t: DateTime): string {
    header + "_" + DateStamp(t) + ".dat"
  }

  /** `file_header + "_events_" + YYYY-MM-DD + ".dat"`. */
  function EventDayFile(header: string, t: DateTime): string {
    header + "_events_" + DateStamp(t) + ".dat"
  }

  function DataFileName(cfg: Config, t: DateTime): string {
    PathJoin(cfg.dataPath, DayFile(cfg.fileHeader, t))
  }

  function EventFileName(cfg: Config, t: DateTime): string {
    PathJoin(cfg.dataPath, EventDayFile(cfg.fileHeader, t))
  }

  function AggregateFileName(cfg: Config, t: DateTime): string {
    PathJoin(cfg.ftpPath, DayFile(cfg.fileHeader, t))
  }

  /** Both day files of a header start alike, so joining them to the same
      directory takes the same branch of `os.path.join`. */
  lemma SamePrefix(dir: string, header: string, t: DateTime, u: DateTime)
    ensures JoinPrefix(dir, DayFile(header, t)) == JoinPrefix(dir, EventDayFile(header, u))
  {
    var d, e := DayFile(header, t), EventDayFile(header, u);
    if |header| > 0 {
      assert d[0] == header[0] && e[0] == header[0];
    } else {
      assert d[0] == '_' && e[0] == '_';
    }
  }

  /** The event file of any day is never the raw data file of any day: the
      two names differ in length by the seven characters of `events_`. */
  lemma EventFileIsNotDataFile(cfg: Config, t: DateTime, u: DateTime)
    ensures |EventFileName(cfg, u)| == |DataFileName(cfg, t)| + 7
    ensures EventFileName(cfg, u) != DataFileName(cfg, t)
  {
    SamePrefix(cfg.dataPath, cfg.fileHeader, t, u);
    PathJoinParts(cfg.dataPath, DayFile(cfg.fileHeader, t));
    PathJoinParts(cfg.dataPath, EventDayFile(cfg.fileHeader, u));
  }

  lemma DayFilePrefix(dir: string, header: string, t: DateTime, u: DateTime)
    ensures JoinPrefix(dir, DayFile(header, t)) == JoinPrefix(dir, DayFile(header, u))
  {
    SamePrefix(dir, header, t, u);
    SamePrefix(dir, header, u, u);
  }

  lemma PrefixCancel(p: string, x: string, y: string)
    requires p + x == p + y
    ensures x == y
  {
    assert x == (p + x)[|p|..];
    assert y == (p + y)[|p|..];
  }

  /** Equal texts that differ only in a middle part of one width agree there. */
  lemma MiddleEqual(a: string, x: string, y: string, b: string)
    requires |x| == |y| && a + x + b == a + y + b
    ensures x == y
  {
    assert x == (a + x + b)[|a|..|a| + |x|];
    assert y == (a + y + b)[|a|..|a| + |y|];
  }

  /** Day partitioning: two times share a raw data file exactly when they
      fall on the same calendar day. */
  lemma DataFilePerDay(cfg: Config, t: DateTime, u: DateTime)
    ensures DataFileName(cfg, t) == DataFileName(cfg, u)
      <==> t.year == u.year && t.month == u.month && t.day == u.day
  {
    if DataFileName(cfg, t) == DataFileName(cfg, u) {
      SameDataFileSameDay(cfg, t, u);
    }
    if t.year == u.year && t.month == u.month && t.day == u.day {
      assert DateStamp(t) == DateStamp(u);
    }
  }

  lemma SameDataFileSameDay(cfg: Config, t: DateTime, u: DateTime)
    requires DataFileName(cfg, t) == DataFileName(cfg, u)
    ensures t.year == u.year && t.month == u.month && t.day == u.day
  {
    var h := cfg.fileHeader;
    var p := JoinPrefix(cfg.dataPath, DayFile(h, t));
    PathJoinParts(cfg.dataPath, DayFile(h, t));
    PathJoinParts(cfg.dataPath, DayFile(h, u));
    DayFilePrefix(cfg.dataPath, h, t, u);
    PrefixCancel(p, DayFile(h, t), DayFile(h, u));
    MiddleEqual(h + "_", DateStamp(t), DateStamp(u), ".dat");
    DateStampInjective(t, u);
  }

  // --------------------------------------------------- temperature window

  /** `append_temperature`: the first one-wire entry's reading joins the
      window when the entry is present and its value truthy. Subscripting an
      empty one-wire list raises `IndexError`, which nothing catches: `None`. */
  function AppendTemperature(window: seq<real>, oneWire: seq<Option<OneWireInput>>): (r: Option<seq<real>>)
    ensures r.Some? <==> |oneWire| > 0
    ensures r.Some? ==> window <= r.value && |r.value| <= |window| + 1
    ensures r.Some? ==>
      (|r.value| == |window| + 1 <==> oneWire[0].Some? && Truthy(oneWire[0].value.value))
    ensures r.Some? && |r.value| == |window| + 1 ==> r.value[|window|] == oneWire[0].value.value.value
  {
    if |oneWire| == 0 then None
    else if oneWire[0].Some? && Truthy(oneWire[0].value.value) then
      Some(window + [oneWire[0].value.value.value])
    else Some(window)
  }

  /** The reading `append_temperature` takes from a one-wire list, if any. */
  function Reading(oneWire: seq<Option<OneWireInput>>): seq<real> {
    if |oneWire| > 0 && oneWire[0].Some? && Truthy(oneWire[0].value.value)
    then [oneWire[0].value.value.value] else []
  }

  /** The window grows by exactly the reading. */
  lemma AppendTemperatureReading(window: seq<real>, oneWire: seq<Option<OneWireInput>>)
    requires |oneWire| > 0
    ensures AppendTemperature(window, oneWire) == Some(window + Reading(oneWire))
  {
    if Reading(oneWire) == [] {
      assert window + [] == window;
    }
  }

  // -------------------------------------------------------------- raw block

  /** What a store reports, and the files after it. */
  datatype Stored = Stored(ok: bool, files: Files)

  /** `store_data_csv`: build the block and append it to the day's data file.
      A `None` one-wire entry raises while the block is built, and a failing
      write raises in `open`/`write`; both are caught and give `False` with
      nothing written. */
  function StoreDataCsv(cfg: Config, files: Files, t: DateTime, s: Snapshot, f: Format, writeOk: bool): (r: Stored)
    ensures r.ok <==> AllPresent(s.oneWire) && writeOk
    ensures !r.ok ==> r.files == files
    ensures r.ok ==> r.files == Append(files, DataFileName(cfg, t), PollBlock(t, s, f).value)
  {
    match PollBlock(t, s, f)
    case None => Stored(false, files)
    case Some(lines) =>
      if writeOk then Stored(true, Append(files, DataFileName(cfg, t), lines)) else Stored(false, files)
  }

  /** A successful store leaves every other file alone and adds to the day's
      data file exactly the block: read back, its new lines are the five
      sections digital, analog, relay, open collector and 1wire, one record
      per channel. */
  lemma StoreDataCsvWritesBlock(cfg: Config, files: Files, t: DateTime, s: Snapshot, f: Format)
    requires AllPresent(s.oneWire) && NamesPlain(s) && FormatPlain(f)
    ensures var r := StoreDataCsv(cfg, files, t, s, f, true);
      var name := DataFileName(cfg, t);
      && r.ok
      && (forall n :: n != name ==> Content(r.files, n) == Content(files, n))
      && Content(files, name) <= Content(r.files, name)
      && Parse(Content(r.files, name)[|Content(files, name)|..]) == PollSections(t, s, f)
  {
    var name := DataFileName(cfg, t);
    var block := PollBlock(t, s, f).value;
    var after := Content(files, name) + block;
    assert after[|Content(files, name)|..] == block;
    PollBlockReadsBack(t, s, f);
  }

  // --------------------------------------------------------------- aggregate

  /** Why `store_ced_data_csv` returned `False`: an empty window, an empty
      one-wire list (`IndexError`), a `None` first entry, a first entry
      without `db_id` (`KeyError`), a one-sample window (`ZeroDivisionError`
      in `_stddev`), or a failing write. */
  datatype CedError = EmptyWindow | MissingProbe | NoItem | MissingDbId | SingleSample | WriteFailed

  /** What `store_ced_data_csv` leaves behind: the aggregate it wrote or why
      it wrote nothing, the files, and the window, which the `finally`
      clause empties on every path. */
  datatype CedOutcome = CedOutcome(result: Result<Aggregate, CedError>, files: Files, window: seq<real>)

  /** `a` holds the statistics of a window of at least two samples: the
      window's mean and Bessel-corrected variance as `_mean` and `_stddev`
      compute them, its minimum and maximum, and the mean between the two. */
  predicate Summarises(a: Aggregate, window: seq<real>) {
    && |window| >= 2
    && Mean(window) == Success(a.mean)
    && Variance(window) == Success(a.variance)
    && a.min == Min(window) && a.max == Max(window)
    && a.min <= a.mean <= a.max
  }

  /** The aggregate of a window, as the row is built: mean, min, max and the
      variance whose square root is written. */
  function WindowAggregate(window: seq<real>, t: DateTime, dbId: int): (r: Result<Aggregate, CedError>)
    ensures |window| == 0 ==> r == Failure(EmptyWindow)
    ensures |window| == 1 ==> r == Failure(SingleSample)
    ensures r.Success? <==> |window| >= 2
    ensures r.Success? ==> r.value.time == t && r.value.dbId == dbId && Summarises(r.value, window)
  {
    if |window| == 0 then Failure(EmptyWindow)
    else
      match Variance(window)
      case Failure(_) => Failure(SingleSample)
      case Success(v) =>
        var a := Aggregate(t, dbId, Mean(window).value, Min(window), Max(window), v);
        WindowStatistics(window, a);
        Success(a)
  }

  lemma WindowStatistics(window: seq<real>, a: Aggregate)
    requires |window| >= 2
    requires a.mean == Mean(window).value && a.min == Min(window) && a.max == Max(window)
    requires Variance(window).Success? && a.variance == Variance(window).value
    ensures Summarises(a, window)
  {
    MeanBetween(window);
  }

  /** Whether the present first one-wire entry carries a database id, the
      entry `store_ced_data_csv` reads `db_id` from. */
  predicate HasDbId(oneWire: seq<Option<OneWireInput>>) {
    |oneWire| > 0 && oneWire[0].Some? && oneWire[0].value.dbId.Some?
  }

  /** The outcome of the `try` block of `store_ced_data_csv`, checked in the
      code's order: the window, the one-wire entry, its `db_id`, the
      statistics, the write. */
  function CedResult(window: seq<real>, oneWire: seq<Option<OneWireInput>>, t: DateTime, writeOk: bool)
    : (r: Result<Aggregate, CedError>)
    ensures |window| == 0 ==> r == Failure(EmptyWindow)
    ensures |window| > 0 && |oneWire| == 0 ==> r == Failure(MissingProbe)
    ensures |window| > 0 && |oneWire| > 0 && oneWire[0].None? ==> r == Failure(NoItem)
    ensures |window| > 0 && |oneWire| > 0 && oneWire[0].Some? && oneWire[0].value.dbId.None? ==>
      r == Failure(MissingDbId)
    ensures |window| == 1 && HasDbId(oneWire) ==> r == Failure(SingleSample)
    ensures |window| >= 2 && HasDbId(oneWire) && !writeOk ==> r == Failure(WriteFailed)
    ensures r.Success? <==> |window| >= 2 && HasDbId(oneWire) && writeOk
    ensures r.Success? ==> r == WindowAggregate(window, t, oneWire[0].value.dbId.value)
  {
    if |window| == 0 then Failure(EmptyWindow)
    else if |oneWire| == 0 then Failure(MissingProbe)
    else if oneWire[0].None? then Failure(NoItem)
    else if oneWire[0].value.dbId.None? then Failure(MissingDbId)
    else
      var agg := WindowAggregate(window, t, oneWire[0].value.dbId.value);
      if agg.Failure? then agg
      else if writeOk then agg
      else Failure(WriteFailed)
  }

  /** `store_ced_data_csv`: on success one aggregate line is appended to the
      day's file under `ftp_path`; on any failure nothing is written. The
      window is emptied on every path. */
  function StoreCedDataCsv(
    cfg: Config, files: Files, window: seq<real>, oneWire: seq<Option<OneWireInput>>,
    t: DateTime, f: Format, writeOk: bool): (r: CedOutcome)
    ensures r.window == []
    ensures r.result == CedResult(window, oneWire, t, writeOk)
    ensures r.result.Failure? ==> r.files == files
    ensures r.result.Success? ==>
      r.files == Append(files, AggregateFileName(cfg, t), [Line(AggregateFields(r.result.value, f))])
  {
    var result := CedResult(window, oneWire, t, writeOk);
    var written :=
      if result.Success? then Append(files, AggregateFileName(cfg, t), [Line(AggregateFields(result.value, f))])
      else files;
    CedOutcome(result, written, [])
  }

  /** The values written to a successful aggregate row summarise the
      window: `sum / len`, min and max, Bessel-corrected variance; the row
      carries the first probe's database id and the time of the call. */
  lemma AggregateRow(window: seq<real>, oneWire: seq<Option<OneWireInput>>, t: DateTime, writeOk: bool)
    requires CedResult(window, oneWire, t, writeOk).Success?
    ensures var a := CedResult(window, oneWire, t, writeOk).value;
      a.time == t && a.dbId == oneWire[0].value.dbId.value && Summarises(a, window)
  {
    var d := oneWire[0].value.dbId.value;
    assert CedResult(window, oneWire, t, writeOk) == WindowAggregate(window, t, d);
  }

  /** The aggregate line reads back as its six fields: the minute stamp
      `YYYY-MM-DD HH:MM:00`, the database id and the four rendered numbers. */
  lemma AggregateLineReadsBack(
    cfg: Config, files: Files, window: seq<real>, oneWire: seq<Option<OneWireInput>>,
    t: DateTime, f: Format)
    requires FormatPlain(f)
    requires |window| >= 2 && HasDbId(oneWire)
    ensures var r := StoreCedDataCsv(cfg, files, window, oneWire, t, f, true);
      var name := AggregateFileName(cfg, t);
      && r.result.Success?
      && Content(r.files, name) == Content(files, name) + [Line(AggregateFields(r.result.value, f))]
      && Split(Line(AggregateFields(r.result.value, f)), Tab) == AggregateFields(r.result.value, f)
      && AggregateFields(r.result.value, f)[0] == MinuteStamp(t)
      && AggregateFields(r.result.value, f)[1] == IntToString(oneWire[0].value.dbId.value)
  {
    var r := StoreCedDataCsv(cfg, files, window, oneWire, t, f, true);
    AggregateReadsBack(r.result.value, f);
  }

  // ------------------------------------------------------------------- event

  /** `store_event`: a present input appends one event line to the day's
      event file; `None` or a failing write (caught and logged) leaves the
      files as they were. */
  function StoreEvent(cfg: Config, files: Files, din: Option<DigitalInput>, t: DateTime, writeOk: bool): (r: Files)
    ensures din.None? || !writeOk ==> r == files
    ensures din.Some? && writeOk ==>
      r == Append(files, EventFileName(cfg, t), [Line(EventFields(t, din.value))])
  {
    if din.Some? && writeOk then Append(files, EventFileName(cfg, t), [Line(EventFields(t, din.value))])
    else files
  }

  /** A stored event adds one line to the event file and nothing anywhere
      else; the line splits into timestamp with microseconds, id, event
      status and name. */
  lemma StoreEventWritesOneLine(cfg: Config, files: Files, d: DigitalInput, t: DateTime)
    requires Plain(d.name)
    ensures var r := StoreEvent(cfg, files, Some(d), t, true);
      var name := EventFileName(cfg, t);
      && |Content(r, name)| == |Content(files, name)| + 1
      && (forall n :: n != name ==> Content(r, n) == Content(files, n))
      && Split(Content(r, name)[|Content(files, name)|], Tab)
           == [MicroStamp(t), IntToString(d.id), ScalarText(d.statusEv), d.name]
  {
    var name := EventFileName(cfg, t);
    EventReadsBack(t, d);
    assert Content(StoreEvent(cfg, files, Some(d), t, true), name)[|Content(files, name)|]
      == Line(EventFields(t, d));
  }
}

=== FILE: pydas.dfy ===
/** The polling thread of `pydas.py`: one pass of its `while True` loop
    as a pure step over the wrapper's state, and runs of steps. Every pass
    reads the clock, aggregates when the time is a whole multiple of
    `store_time`, then polls when it is a whole multiple of `polling_time`.
    The board calls of the base class are recorded in a trace. */
module Pydas {
  import opened Wrappers
  import opened Clock
  import opened Channels
  import opened Rows
  import opened IonoWrapper

  /** The configuration `main` hands to the polling thread: poll every 10 s,
      aggregate every 60 s, raw data and events under `<script dir>/data`,
      aggregates under `<script dir>/ftp`, file names starting with `iono`. */
  function MainConfig(scriptDir: string): Config {
    Config(10, 60, PathJoin(scriptDir, "data"), PathJoin(scriptDir, "ftp"), "iono")
  }

  // ---------------------------------------------------------- boundary test

  /** `unix_time` is read as a whole number of microseconds. */
  const MicrosPerSecond: int := 1000000

  /** Python's `int(x)` of a float: truncation toward zero. */
  function Trunc(x: real): int {
    if x >= 0.0 then x.Floor else -((-x).Floor)
  }

  /** The test `int(ptime / period) == ptime / period` at a clock reading of
      `t` microseconds. Dividing by a zero period raises, so the test needs
      a non-zero period. */
  predicate Boundary(t: int, period: int)
    requires period != 0
  {
    var x := (t as real / MicrosPerSecond as real) / period as real;
    Trunc(x) as real == x
  }

  predicate IsInteger(x: real) {
    x.Floor as real == x
  }

  lemma TruncExact(x: real)
    ensures Trunc(x) as real == x <==> IsInteger(x)
  {
    if x < 0.0 {
      var f := (-x).Floor;
      if Trunc(x) as real == x {
        assert x == (-f) as real;
        assert ((-f) as real).Floor == -f;
      }
      if IsInteger(x) {
        var k := x.Floor;
        assert -x == (-k) as real;
        assert ((-k) as real).Floor == -k;
      }
    }
  }

  lemma Cancel(a: real, b: real, c: real)
    requires c != 0.0 && a * c == b * c
    ensures a == b
  {
    assert (a - b) * c == 0.0;
  }

  lemma Scaled(t: int, p: int, x: real)
    requires p != 0
    requires x == (t as real / MicrosPerSecond as real) / p as real
    ensures x * (p * MicrosPerSecond) as real == t as real
  {
    var y := t as real / MicrosPerSecond as real;
    assert y * 1000000.0 == t as real;
    assert x * p as real == y;
    calc {
      x * (p * MicrosPerSecond) as real;
      == x * (p as real * 1000000.0);
      == (x * p as real) * 1000000.0;
      == y * 1000000.0;
    }
  }

  lemma ProductCast(k: int, q: int)
    ensures (k * q) as real == k as real * q as real
  {}

  lemma NonNegativeProduct(a: int, b: int)
    requires a >= 0 && b >= 0
    ensures a * b >= 0
  {}

  /** A non-zero multiple of `q` is negative or at least as large as `q`. */
  lemma MultipleSize(q: int, e: int)
    ensures e == 0 || q * e < 0 || (q * e >= q && q * e >= -q)
  {
    if e > 0 && q > 0 {
      NonNegativeProduct(q, e - 1);
      assert q * e == q * (e - 1) + q;
    } else if e > 0 && q < 0 {
      NonNegativeProduct(-q, e);
      assert q * e == -((-q) * e);
    } else if e < 0 && q > 0 {
      NonNegativeProduct(q, -e);
      assert q * e == -(q * (-e));
    } else if e < 0 && q < 0 {
      NonNegativeProduct(-q, -e - 1);
      assert q * e == (-q) * (-e - 1) + (-q);
    }
  }

  lemma MultipleMod(k: int, q: int)
    requires q != 0
    ensures (k * q) % q == 0
  {
    var t := k * q;
    var d := t / q;
    assert t == q * d + t % q;
    assert t % q == q * (k - d);
    MultipleSize(q, k - d);
  }

  /** The float test is exact divisibility: the clock reading is a whole
      multiple of the period. */
  lemma BoundaryIsMultiple(t: int, p: int)
    requires p != 0
    ensures Boundary(t, p) <==> t % (p * MicrosPerSecond) == 0
  {
    var q := p * MicrosPerSecond;
    var x := (t as real / MicrosPerSecond as real) / p as real;
    Scaled(t, p, x);
    TruncExact(x);
    assert q != 0;
    if Boundary(t, p) {
      var k := x.Floor;
      ProductCast(k, q);
      assert (k * q) as real == t as real;
      assert k * q == t;
      MultipleMod(k, q);
    }
    if t % q == 0 {
      var k := t / q;
      assert t == k * q;
      ProductCast(k, q);
      Cancel(x, k as real, q as real);
      assert x.Floor == k;
    }
  }

  /** With the configuration of `main`, every aggregation pass is also a
      polling pass: a multiple of 60 s is a multiple of 10 s. */
  lemma AggregationTicksPoll(scriptDir: string, t: int)
    ensures var cfg := MainConfig(scriptDir);
      Boundary(t, cfg.storeTime) ==> Boundary(t, cfg.pollingTime)
  {
    BoundaryIsMultiple(t, 60);
    BoundaryIsMultiple(t, 10);
    if t % 60000000 == 0 {
      var d := t / 60000000;
      assert t == (6 * d) * 10000000;
      MultipleMod(6 * d, 10000000);
    }
  }

  /** A relative name joined under a relative sub-directory of `dir` has
      the sub-directory's first character right after the part taken from
      `dir`. */
  lemma UnderSubdirectory(dir: string, sub: string, name: string)
    requires |sub| > 0 && sub[0] != '/' && sub[|sub| - 1] != '/'
    requires |name| > 0 && name[0] != '/'
    ensures var k := |JoinPrefix(dir, sub)|;
      k < |PathJoin(PathJoin(dir, sub), name)| && PathJoin(PathJoin(dir, sub), name)[k] == sub[0]
  {
    var p := JoinPrefix(dir, sub);
    PathJoinParts(dir, sub);
    var d := PathJoin(dir, sub);
    assert d[|p|] == sub[0];
    assert PathJoin(d, name) == d + "/" + name;
  }

  lemma SamePrefixOfRelative(dir: string, a: string, b: string)
    requires |a| > 0 && a[0] != '/' && |b| > 0 && b[0] != '/'
    ensures JoinPrefix(dir, a) == JoinPrefix(dir, b)
  {}

  /** Names joined under two relative sub-directories of `dir` that start
      differently are different paths. */
  lemma DistinctSubdirectories(dir: string, a: string, b: string, x: string, y: string)
    requires |a| > 0 && a[0] != '/' && a[|a| - 1] != '/'
    requires |b| > 0 && b[0] != '/' && b[|b| - 1] != '/'
    requires a[0] != b[0]
    requires |x| > 0 && x[0] != '/' && |y| > 0 && y[0] != '/'
    ensures PathJoin(PathJoin(dir, a), x) != PathJoin(PathJoin(dir, b), y)
  {
    SamePrefixOfRelative(dir, a, b);
    UnderSubdirectory(dir, a, x);
    UnderSubdirectory(dir, b, y);
  }

  /** The aggregate file of `main`'s configuration lies under `ftp`, never
      under `data`, so it is neither a raw data file nor an event file. */
  lemma AggregateFileApart(scriptDir: string, t: DateTime, u: DateTime)
    ensures var cfg := MainConfig(scriptDir);
      && AggregateFileName(cfg, t) != DataFileName(cfg, u)
      && AggregateFileName(cfg, t) != EventFileName(cfg, u)
  {
    var day, data, events := DayFile("iono", t), DayFile("iono", u), EventDayFile("iono", u);
    assert day[0] == 'i' && data[0] == 'i' && events[0] == 'i';
    DistinctSubdirectories(scriptDir, "ftp", "data", day, data);
    DistinctSubdirectories(scriptDir, "ftp", "data", day, events);
  }

  // ------------------------------------------------------------- the loop

  /** The outputs the pass pulses. */
  datatype Output = Led | Relay(n: int) | OpenCollector(n: int)

  /** A call the pass makes, in the order made. */
  datatype Action =
    | SetOutput(output: Output, on: bool)
    | ReadDigital | ReadAnalog | ReadRelays | ReadOpenCollectors | ReadOneWire
    | StoreRaw(ok: bool)
    | AppendReading(reading: seq<real>)
    | AppendFailed
    | StoreAggregate(samples: seq<real>, result: Result<Aggregate, CedError>)
    | ResetEvents

  /** The wrapper as the loop sees it: the temperature window, the one-wire
      list of the last poll, the files, the three pulsed outputs, whether the
      thread still runs, and the calls made so far. */
  datatype State = State(
    window: seq<real>,
    oneWire: seq<Option<OneWireInput>>,
    files: Files,
    led: bool, relay1: bool, openCollector1: bool,
    running: bool,
    trace: seq<Action>)

  /** What the world supplies to one pass: the clock reading (microseconds),
      the board readings of a poll, the wall-clock times of the two stores,
      and whether their writes succeed. */
  datatype Tick = Tick(
    time: int,
    snapshot: Snapshot,
    aggregateClock: DateTime,
    rawClock: DateTime,
    aggregateWriteOk: bool,
    rawWriteOk: bool)

  predicate ValidPeriods(cfg: Config) {
    cfg.pollingTime != 0 && cfg.storeTime != 0
  }

  /** The wrapper right after its constructor, which sets the first probe's
      `db_id` to 1. Subscripting an empty one-wire list raises `IndexError`
      and a `None` first entry raises `TypeError`; either way no wrapper is
      built: `None`. The three pulsed outputs are taken to start off. */
  function Init(oneWire: seq<Option<OneWireInput>>, files: Files): (r: Option<State>)
    ensures r.Some? <==> |oneWire| > 0 && oneWire[0].Some?
    ensures r.Some? ==> var s := r.value;
      && s.window == [] && s.running && s.trace == [] && s.files == files && OutputsOff(s)
      && HasDbId(s.oneWire) && s.oneWire[0].value.dbId == Some(1)
      && s.oneWire[0].value.(dbId := oneWire[0].value.dbId) == oneWire[0].value
      && |s.oneWire| == |oneWire| && s.oneWire[1..] == oneWire[1..]
  {
    if |oneWire| == 0 || oneWire[0].None? then None
    else
      var first := oneWire[0].value.(dbId := Some(1));
      Some(State([], oneWire[0 := Some(first)], files, false, false, false, true, []))
  }

  const PulseOn: seq<Action> :=
    [SetOutput(Led, true), SetOutput(Relay(1), true), SetOutput(OpenCollector(1), true)]
  const Reads: seq<Action> :=
    [ReadDigital, ReadAnalog, ReadRelays, ReadOpenCollectors, ReadOneWire]
  const PulseOff: seq<Action> :=
    [SetOutput(Led, false), SetOutput(Relay(1), false), SetOutput(OpenCollector(1), false)]

  /** The calls of a poll up to and including the raw store. */
  function PollStart(rawOk: bool): seq<Action> {
    PulseOn + Reads + [StoreRaw(rawOk)]
  }

  /** The calls of a completed poll. */
  function PollActions(rawOk: bool, reading: seq<real>): seq<Action> {
    PollStart(rawOk) + [AppendReading(reading)] + PulseOff + [ResetEvents]
  }

  /** `module.store_ced_data_csv()`. */
  function AggregateStep(cfg: Config, f: Format, s: State, k: Tick): State {
    var o := StoreCedDataCsv(cfg, s.files, s.window, s.oneWire, k.aggregateClock, f, k.aggregateWriteOk);
    s.(window := o.window, files := o.files, trace := s.trace + [StoreAggregate(s.window, o.result)])
  }

  /** The polling block. An `IndexError` from `append_temperature` is not
      caught, so it ends the thread with the outputs still on. */
  function PollStep(cfg: Config, f: Format, s: State, k: Tick): State {
    var snap := k.snapshot;
    var raw := StoreDataCsv(cfg, s.files, k.rawClock, snap, f, k.rawWriteOk);
    match AppendTemperature(s.window, snap.oneWire)
    case None =>
      s.(oneWire := snap.oneWire, files := raw.files,
         led := true, relay1 := true, openCollector1 := true,
         running := false, trace := s.trace + PollStart(raw.ok) + [AppendFailed])
    case Some(w) =>
      s.(window := w, oneWire := snap.oneWire, files := raw.files,
         led := false, relay1 := false, openCollector1 := false,
         trace := s.trace + PollActions(raw.ok, Reading(snap.oneWire)))
  }

  /** One pass of the loop: aggregation check first, polling check second. */
  function Step(cfg: Config, f: Format, s: State, k: Tick): State
    requires ValidPeriods(cfg)
  {
    if !s.running then s
    else
      var a := if Boundary(k.time, cfg.storeTime) then AggregateStep(cfg, f, s, k) else s;
      if Boundary(k.time, cfg.pollingTime) then PollStep(cfg, f, a, k) else a
  }

  /** Consecutive passes. */
  function Run(cfg: Config, f: Format, s: State, ks: seq<Tick>): State
    requires ValidPeriods(cfg)
    decreases |ks|
  {
    if |ks| == 0 then s else Step(cfg, f, Run(cfg, f, s, ks[..|ks| - 1]), ks[|ks| - 1])
  }

  // ------------------------------------------------------------ properties

  /** A completed poll makes fourteen calls: the three outputs on, the five
      reads, the raw store, the append, the three outputs off and the event
      reset, which comes last and after the raw store. */
  lemma PollOrder(rawOk: bool, reading: seq<real>)
    ensures var p := PollActions(rawOk, reading);
      && |p| == 14
      && p[0] == SetOutput(Led, true) && p[1] == SetOutput(Relay(1), true)
      && p[2] == SetOutput(OpenCollector(1), true)
      && p[3..8] == [ReadDigital, ReadAnalog, ReadRelays, ReadOpenCollectors, ReadOneWire]
      && p[8] == StoreRaw(rawOk) && p[9] == AppendReading(reading)
      && p[10] == SetOutput(Led, false) && p[11] == SetOutput(Relay(1), false)
      && p[12] == SetOutput(OpenCollector(1), false)
      && p[13] == ResetEvents
      && (forall i :: 0 <= i < 13 ==> p[i] != ResetEvents)
  {
    var p := PollActions(rawOk, reading);
    assert p == PulseOn + Reads + [StoreRaw(rawOk), AppendReading(reading)] + PulseOff + [ResetEvents];
    assert p[3..8] == Reads;
  }

  /** The calls one running pass adds: the aggregate store when the time is
      a multiple of `store_time`, taking the window as it was before this
      pass, then the poll when it is a multiple of `polling_time`. */
  lemma StepTrace(cfg: Config, f: Format, s: State, k: Tick)
    requires ValidPeriods(cfg) && s.running
    requires Boundary(k.time, cfg.pollingTime) ==> |k.snapshot.oneWire| > 0
    ensures Step(cfg, f, s, k).trace == s.trace + AggregateCalls(cfg, s, k) + PollCalls(cfg, k)
  {
    var a := if Boundary(k.time, cfg.storeTime) then AggregateStep(cfg, f, s, k) else s;
    assert a.trace == s.trace + AggregateCalls(cfg, s, k);
    if Boundary(k.time, cfg.pollingTime) {
      AppendTemperatureReading(a.window, k.snapshot.oneWire);
    } else {
      assert a.trace + [] == a.trace;
    }
  }

  /** The aggregate store a running pass makes, if any: over the window from
      before the pass, with the outcome `store_ced_data_csv` reports. */
  function AggregateCalls(cfg: Config, s: State, k: Tick): seq<Action>
    requires ValidPeriods(cfg)
  {
    if Boundary(k.time, cfg.storeTime)
    then [StoreAggregate(s.window, CedResult(s.window, s.oneWire, k.aggregateClock, k.aggregateWriteOk))]
    else []
  }

  /** The poll a running pass makes, if any. */
  function PollCalls(cfg: Config, k: Tick): seq<Action>
    requires ValidPeriods(cfg)
  {
    if Boundary(k.time, cfg.pollingTime)
    then PollActions(AllPresent(k.snapshot.oneWire) && k.rawWriteOk, Reading(k.snapshot.oneWire))
    else []
  }

  /** Occurrences of calls of one kind. */
  function Count(tr: seq<Action>, kind: Kind): nat
    decreases |tr|
  {
    if |tr| == 0 then 0 else Count(tr[..|tr| - 1], kind) + (if Is(kind, tr[|tr| - 1]) then 1 else 0)
  }

  lemma {:induction false} CountAppend(a: seq<Action>, b: seq<Action>, kind: Kind)
    ensures Count(a + b, kind) == Count(a, kind) + Count(b, kind)
    decreases |b|
  {
    if |b| == 0 {
      assert a + b == a;
    } else {
      assert (a + b)[..|a + b| - 1] == a + b[..|b| - 1];
      CountAppend(a, b[..|b| - 1], kind);
    }
  }

  /** The kinds of call counted. */
  datatype Kind = AggregateStores | RawStores | Resets

  predicate Is(kind: Kind, x: Action) {
    match kind
    case AggregateStores => x.StoreAggregate?
    case RawStores => x.StoreRaw?
    case Resets => x.ResetEvents?
  }

  lemma PollCounts(rawOk: bool, reading: seq<real>, kind: Kind)
    ensures Count(PollActions(rawOk, reading), kind)
      == (if kind == RawStores then 1 else 0) + (if kind == Resets then 1 else 0)
  {
    var o := PulseOn + Reads;
    var m := [AppendReading(reading)] + PulseOff;
    var p := PollActions(rawOk, reading);
    assert p == o + [StoreRaw(rawOk)] + m + [ResetEvents] by {
      assert PollStart(rawOk) + [AppendReading(reading)] + PulseOff
        == o + [StoreRaw(rawOk)] + m;
    }
    CountAppend(o + [StoreRaw(rawOk)] + m, [ResetEvents], kind);
    CountAppend(o + [StoreRaw(rawOk)], m, kind);
    CountAppend(o, [StoreRaw(rawOk)], kind);
    CountNone(o, kind);
    CountNone(m, kind);
    CountOne(StoreRaw(rawOk), kind);
    CountOne(ResetEvents, kind);
  }

  lemma CountOne(x: Action, kind: Kind)
    ensures Count([x], kind) == if Is(kind, x) then 1 else 0
  {
    assert [x][..0] == [];
  }

  lemma {:induction false} CountNone(tr: seq<Action>, kind: Kind)
    requires forall i :: 0 <= i < |tr| ==> !Is(kind, tr[i])
    ensures Count(tr, kind) == 0
    decreases |tr|
  {
    if |tr| > 0 {
      CountNone(tr[..|tr| - 1], kind);
    }
  }

  /** A running pass calls `store_ced_data_csv` exactly when the time is a
      multiple of `store_time`, calls `store_data_csv` exactly when it is a
      multiple of `polling_time`, and resets the digital-input events
      exactly then too: once per poll and never on other passes. Whether a
      call writes anything is up to the store itself. */
  lemma StepCounts(cfg: Config, f: Format, s: State, k: Tick)
    requires ValidPeriods(cfg) && s.running
    requires Boundary(k.time, cfg.pollingTime) ==> |k.snapshot.oneWire| > 0
    ensures var tr := Step(cfg, f, s, k).trace;
      && Count(tr, AggregateStores) == Count(s.trace, AggregateStores) + (if Boundary(k.time, cfg.storeTime) then 1 else 0)
      && Count(tr, RawStores) == Count(s.trace, RawStores) + (if Boundary(k.time, cfg.pollingTime) then 1 else 0)
      && Count(tr, Resets) == Count(s.trace, Resets) + (if Boundary(k.time, cfg.pollingTime) then 1 else 0)
  {
    StepTrace(cfg, f, s, k);
    var a := AggregateCalls(cfg, s, k);
    var p := PollCalls(cfg, k);
    CallCounts(s.trace, a, p, cfg, s, k, AggregateStores);
    CallCounts(s.trace, a, p, cfg, s, k, RawStores);
    CallCounts(s.trace, a, p, cfg, s, k, Resets);
  }

  lemma CallCounts(tr: seq<Action>, a: seq<Action>, p: seq<Action>, cfg: Config, s: State, k: Tick, kind: Kind)
    requires ValidPeriods(cfg)
    requires a == AggregateCalls(cfg, s, k) && p == PollCalls(cfg, k)
    ensures Count(tr + a + p, kind) == Count(tr, kind) + Count(a, kind) + Count(p, kind)
    ensures Count(a, kind) == if kind == AggregateStores && Boundary(k.time, cfg.storeTime) then 1 else 0
    ensures Count(p, kind) == if kind != AggregateStores && Boundary(k.time, cfg.pollingTime) then 1 else 0
  {
    CountAppend(tr + a, p, kind);
    CountAppend(tr, a, kind);
    if Boundary(k.time, cfg.storeTime) {
      CountOne(a[0], kind);
    } else {
      CountNone(a, kind);
    }
    if Boundary(k.time, cfg.pollingTime) {
      var rawOk := AllPresent(k.snapshot.oneWire) && k.rawWriteOk;
      PollCounts(rawOk, Reading(k.snapshot.oneWire), kind);
    } else {
      CountNone(p, kind);
    }
  }

  /** The calls of a poll that crashes in `append_temperature`. */
  lemma CrashCounts(rawOk: bool, kind: Kind)
    ensures Count(PollStart(rawOk) + [AppendFailed], kind) == if kind == RawStores then 1 else 0
  {
    var o := PulseOn + Reads;
    assert PollStart(rawOk) + [AppendFailed] == o + [StoreRaw(rawOk)] + [AppendFailed];
    CountAppend(o + [StoreRaw(rawOk)], [AppendFailed], kind);
    CountAppend(o, [StoreRaw(rawOk)], kind);
    CountNone(o, kind);
    CountOne(StoreRaw(rawOk), kind);
    CountOne(AppendFailed, kind);
  }

  /** The calls and outputs of a polling pass that finds an empty one-wire list. */
  lemma CrashTrace(cfg: Config, f: Format, s: State, k: Tick)
    requires ValidPeriods(cfg) && s.running
    requires Boundary(k.time, cfg.pollingTime) && |k.snapshot.oneWire| == 0
    ensures var s' := Step(cfg, f, s, k);
      && s'.trace == s.trace + AggregateCalls(cfg, s, k) + (PollStart(k.rawWriteOk) + [AppendFailed])
      && !s'.running && s'.led && s'.relay1 && s'.openCollector1
  {
    var a := if Boundary(k.time, cfg.storeTime) then AggregateStep(cfg, f, s, k) else s;
    assert a.trace == s.trace + AggregateCalls(cfg, s, k);
    assert AllPresent(k.snapshot.oneWire);
  }

  /** A polling pass that finds an empty one-wire list: after the aggregate
      store, if due, the outputs go on, the five reads and the raw store are
      made, and `append_temperature` raises. The outputs are never switched
      off, the events are not reset, and the thread ends. */
  lemma CrashPass(cfg: Config, f: Format, s: State, k: Tick)
    requires ValidPeriods(cfg) && s.running
    requires Boundary(k.time, cfg.pollingTime) && |k.snapshot.oneWire| == 0
    ensures var s' := Step(cfg, f, s, k);
      && s'.trace == s.trace + AggregateCalls(cfg, s, k) + PollStart(k.rawWriteOk) + [AppendFailed]
      && !s'.running && s'.led && s'.relay1 && s'.openCollector1
      && Count(s'.trace, AggregateStores)
           == Count(s.trace, AggregateStores) + (if Boundary(k.time, cfg.storeTime) then 1 else 0)
      && Count(s'.trace, RawStores) == Count(s.trace, RawStores) + 1
      && Count(s'.trace, Resets) == Count(s.trace, Resets)
  {
    CrashTrace(cfg, f, s, k);
    var ag := AggregateCalls(cfg, s, k);
    var c := PollStart(k.rawWriteOk) + [AppendFailed];
    CrashKind(cfg, s, k, ag, c, AggregateStores);
    CrashKind(cfg, s, k, ag, c, RawStores);
    CrashKind(cfg, s, k, ag, c, Resets);
  }

  lemma CrashKind(cfg: Config, s: State, k: Tick, ag: seq<Action>, c: seq<Action>, kind: Kind)
    requires ValidPeriods(cfg)
    requires ag == AggregateCalls(cfg, s, k) && c == PollStart(k.rawWriteOk) + [AppendFailed]
    ensures Count(s.trace + ag + c, kind) == Count(s.trace, kind)
      + (if kind == AggregateStores && Boundary(k.time, cfg.storeTime) then 1 else 0)
      + (if kind == RawStores then 1 else 0)
  {
    CallCounts(s.trace, ag, PollCalls(cfg, k), cfg, s, k, kind);
    CountAppend(s.trace + ag, c, kind);
    CountAppend(s.trace, ag, kind);
    CrashCounts(k.rawWriteOk, kind);
  }

  /** On a pass that is both an aggregation and a polling pass, the
      aggregate store is called first and covers only the window from before the
      pass; the reading taken by this pass starts the next window. */
  lemma SharedBoundary(cfg: Config, f: Format, s: State, k: Tick)
    requires ValidPeriods(cfg) && s.running
    requires Boundary(k.time, cfg.storeTime) && Boundary(k.time, cfg.pollingTime)
    requires |k.snapshot.oneWire| > 0
    ensures var s' := Step(cfg, f, s, k);
      && s'.trace == s.trace
           + [StoreAggregate(s.window, CedResult(s.window, s.oneWire, k.aggregateClock, k.aggregateWriteOk))]
           + PollActions(AllPresent(k.snapshot.oneWire) && k.rawWriteOk, Reading(k.snapshot.oneWire))
      && s'.window == Reading(k.snapshot.oneWire)
  {
    StepTrace(cfg, f, s, k);
    StepWindow(cfg, f, s, k);
  }

  /** The window after a running pass: emptied by an aggregation, then
      extended by the poll's reading. */
  lemma StepWindow(cfg: Config, f: Format, s: State, k: Tick)
    requires ValidPeriods(cfg) && s.running
    requires Boundary(k.time, cfg.pollingTime) ==> |k.snapshot.oneWire| > 0
    ensures Step(cfg, f, s, k).window
      == (if Boundary(k.time, cfg.storeTime) then [] else s.window)
         + (if Boundary(k.time, cfg.pollingTime) then Reading(k.snapshot.oneWire) else [])
  {
    var a := if Boundary(k.time, cfg.storeTime) then AggregateStep(cfg, f, s, k) else s;
    if Boundary(k.time, cfg.pollingTime) {
      AppendTemperatureReading(a.window, k.snapshot.oneWire);
    } else {
      assert a.window + [] == a.window;
    }
  }

  /** The thread stops only when a poll finds an empty one-wire list; a
      failing store never stops it, since every store returns a boolean. */
  lemma StepRunning(cfg: Config, f: Format, s: State, k: Tick)
    requires ValidPeriods(cfg) && s.running
    ensures Step(cfg, f, s, k).running
      <==> !(Boundary(k.time, cfg.pollingTime) && |k.snapshot.oneWire| == 0)
  {}

  /** A pass that is neither an aggregation nor a polling pass changes
      nothing, and a stopped thread does nothing at all. */
  lemma QuietStep(cfg: Config, f: Format, s: State, k: Tick)
    requires ValidPeriods(cfg)
    requires !s.running || (!Boundary(k.time, cfg.storeTime) && !Boundary(k.time, cfg.pollingTime))
    ensures Step(cfg, f, s, k) == s
  {}

  predicate OutputsOff(s: State) {
    !s.led && !s.relay1 && !s.openCollector1
  }

  /** The pulse is always reverted: after a completed poll the LED, relay 1
      and open collector 1 are off, and a pass without a poll leaves them
      as they were. */
  lemma StepOutputs(cfg: Config, f: Format, s: State, k: Tick)
    requires ValidPeriods(cfg) && s.running
    ensures var s' := Step(cfg, f, s, k);
      && (s'.running && Boundary(k.time, cfg.pollingTime) ==> OutputsOff(s'))
      && (!Boundary(k.time, cfg.pollingTime) ==>
            s'.led == s.led && s'.relay1 == s.relay1 && s'.openCollector1 == s.openCollector1)
  {}

  lemma AggregateGrows(cfg: Config, f: Format, s: State, k: Tick)
    ensures var a := AggregateStep(cfg, f, s, k);
      s.trace <= a.trace && Grows(s.files, a.files)
  {
    var o := StoreCedDataCsv(cfg, s.files, s.window, s.oneWire, k.aggregateClock, f, k.aggregateWriteOk);
    if o.result.Success? {
      AppendGrows(s.files, AggregateFileName(cfg, k.aggregateClock), [Line(AggregateFields(o.result.value, f))]);
    }
  }

  lemma PollGrows(cfg: Config, f: Format, s: State, k: Tick)
    ensures var p := PollStep(cfg, f, s, k);
      s.trace <= p.trace && Grows(s.files, p.files)
  {
    var raw := StoreDataCsv(cfg, s.files, k.rawClock, k.snapshot, f, k.rawWriteOk);
    if raw.ok {
      AppendGrows(s.files, DataFileName(cfg, k.rawClock), PollBlock(k.rawClock, k.snapshot, f).value);
    }
    assert PollStep(cfg, f, s, k).files == raw.files;
  }

  /** Files and trace only grow: every file keeps its lines as a prefix, and
      the calls made so far stay in front. */
  lemma StepGrows(cfg: Config, f: Format, s: State, k: Tick)
    requires ValidPeriods(cfg)
    ensures var s' := Step(cfg, f, s, k);
      s.trace <= s'.trace && Grows(s.files, s'.files)
  {
    if s.running {
      var a := if Boundary(k.time, cfg.storeTime) then AggregateStep(cfg, f, s, k) else s;
      if Boundary(k.time, cfg.storeTime) {
        AggregateGrows(cfg, f, s, k);
      }
      if Boundary(k.time, cfg.pollingTime) {
        PollGrows(cfg, f, a, k);
        GrowsTransitive(s.files, a.files, PollStep(cfg, f, a, k).files);
      }
    }
  }

  /** The parts of the state an aggregation decides: the window is emptied,
      the rest of what steers the loop stays. */
  lemma AggregateControl(cfg: Config, f: Format, s: State, k: Tick)
    ensures var a := AggregateStep(cfg, f, s, k);
      && a.window == [] && a.running == s.running && a.oneWire == s.oneWire
      && a.led == s.led && a.relay1 == s.relay1 && a.openCollector1 == s.openCollector1
  {}

  /** The parts of the state a poll decides, none of which depends on the
      files or on whether the raw write succeeds. */
  lemma PollControl(cfg: Config, f: Format, s: State, k: Tick)
    ensures var p := PollStep(cfg, f, s, k);
      var ws := k.snapshot.oneWire;
      && p.running == (s.running && |ws| > 0)
      && p.window == (if |ws| > 0 then s.window + Reading(ws) else s.window)
      && p.led == (|ws| == 0) && p.relay1 == (|ws| == 0) && p.openCollector1 == (|ws| == 0)
  {
    if |k.snapshot.oneWire| > 0 {
      AppendTemperatureReading(s.window, k.snapshot.oneWire);
    }
  }

  /** Whether writes succeed decides what lands in the files, never the
      window, the outputs or whether the thread keeps running. */
  lemma WritesDoNotSteer(cfg: Config, f: Format, s: State, k: Tick, aggOk: bool, rawOk: bool)
    requires ValidPeriods(cfg)
    ensures var s1 := Step(cfg, f, s, k);
      var s2 := Step(cfg, f, s, k.(aggregateWriteOk := aggOk, rawWriteOk := rawOk));
      && s1.window == s2.window && s1.running == s2.running
      && s1.led == s2.led && s1.relay1 == s2.relay1 && s1.openCollector1 == s2.openCollector1
  {
    var k2 := k.(aggregateWriteOk := aggOk, rawWriteOk := rawOk);
    if s.running {
      var a1 := if Boundary(k.time, cfg.storeTime) then AggregateStep(cfg, f, s, k) else s;
      var a2 := if Boundary(k.time, cfg.storeTime) then AggregateStep(cfg, f, s, k2) else s;
      AggregateControl(cfg, f, s, k);
      AggregateControl(cfg, f, s, k2);
      PollControl(cfg, f, a1, k);
      PollControl(cfg, f, a2, k2);
    }
  }

  // ------------------------------------------------------------------ runs

  /** The reading a pass adds to the window when it polls. */
  function PollReading(cfg: Config, k: Tick): seq<real>
    requires ValidPeriods(cfg)
  {
    if Boundary(k.time, cfg.pollingTime) then Reading(k.snapshot.oneWire) else []
  }

  /** The readings of the polling passes among `ks`, in order. */
  function Readings(cfg: Config, ks: seq<Tick>): seq<real>
    requires ValidPeriods(cfg)
    decreases |ks|
  {
    if |ks| == 0 then [] else Readings(cfg, ks[..|ks| - 1]) + PollReading(cfg, ks[|ks| - 1])
  }

  /** Every polling pass finds a non-empty one-wire list. */
  predicate Healthy(cfg: Config, ks: seq<Tick>)
    requires ValidPeriods(cfg)
  {
    forall i :: 0 <= i < |ks| ==> Boundary(ks[i].time, cfg.pollingTime) ==> |ks[i].snapshot.oneWire| > 0
  }

  /** No pass among `ks` aggregates. */
  predicate NoAggregation(cfg: Config, ks: seq<Tick>)
    requires ValidPeriods(cfg)
  {
    forall i :: 0 <= i < |ks| ==> !Boundary(ks[i].time, cfg.storeTime)
  }

  /** Without an aggregation the window collects exactly the truthy first
      one-wire readings of the polls, in order, and the thread keeps running. */
  lemma {:induction false} RunCollects(cfg: Config, f: Format, s: State, ks: seq<Tick>)
    requires ValidPeriods(cfg) && s.running
    requires Healthy(cfg, ks) && NoAggregation(cfg, ks)
    ensures Run(cfg, f, s, ks).running
    ensures Run(cfg, f, s, ks).window == s.window + Readings(cfg, ks)
    decreases |ks|
  {
    if |ks| == 0 {
      assert s.window + [] == s.window;
    } else {
      var init := ks[..|ks| - 1];
      var k := ks[|ks| - 1];
      assert Healthy(cfg, init) && NoAggregation(cfg, init) by {
        forall i | 0 <= i < |init| ensures init[i] == ks[i] {}
      }
      RunCollects(cfg, f, s, init);
      var r := Run(cfg, f, s, init);
      StepRunning(cfg, f, r, k);
      StepWindow(cfg, f, r, k);
      assert r.window + PollReading(cfg, k) == s.window + Readings(cfg, init) + PollReading(cfg, k);
    }
  }

  /** After an aggregation pass `k0` and passes that do not aggregate, the
      window holds exactly the readings of the polls of that stretch,
      beginning with `k0`'s own. */
  lemma WindowSinceAggregation(cfg: Config, f: Format, s: State, k0: Tick, ks: seq<Tick>)
    requires ValidPeriods(cfg) && s.running
    requires Boundary(k0.time, cfg.storeTime)
    requires Healthy(cfg, [k0] + ks) && NoAggregation(cfg, ks)
    ensures Run(cfg, f, s, [k0] + ks).running
    ensures Run(cfg, f, s, [k0] + ks).window == Readings(cfg, [k0] + ks)
  {
    var s0 := Step(cfg, f, s, k0);
    assert Boundary(k0.time, cfg.pollingTime) ==> |k0.snapshot.oneWire| > 0 by {
      assert ([k0] + ks)[0] == k0;
    }
    StepRunning(cfg, f, s, k0);
    StepWindow(cfg, f, s, k0);
    assert Healthy(cfg, ks) by {
      forall i | 0 <= i < |ks| ensures ([k0] + ks)[i + 1] == ks[i] {}
    }
    RunCollects(cfg, f, s0, ks);
    RunFrom(cfg, f, s, k0, ks);
    ReadingsFrom(cfg, k0, ks);
  }

  /** Running `[k] + ks` is stepping `k`, then running `ks`. */
  lemma {:induction false} RunFrom(cfg: Config, f: Format, s: State, k: Tick, ks: seq<Tick>)
    requires ValidPeriods(cfg)
    ensures Run(cfg, f, s, [k] + ks) == Run(cfg, f, Step(cfg, f, s, k), ks)
    decreases |ks|
  {
    if |ks| == 0 {
      assert ([k] + ks)[..0] == [];
    } else {
      var all := [k] + ks;
      assert all[..|all| - 1] == [k] + ks[..|ks| - 1];
      RunFrom(cfg, f, s, k, ks[..|ks| - 1]);
    }
  }

  lemma {:induction false} ReadingsFrom(cfg: Config, k: Tick, ks: seq<Tick>)
    requires ValidPeriods(cfg)
    ensures Readings(cfg, [k] + ks) == PollReading(cfg, k) + Readings(cfg, ks)
    decreases |ks|
  {
    if |ks| == 0 {
      assert ([k] + ks)[..0] == [];
    } else {
      var all := [k] + ks;
      assert all[..|all| - 1] == [k] + ks[..|ks| - 1];
      ReadingsFrom(cfg, k, ks[..|ks| - 1]);
    }
  }

  /** Between two consecutive aggregation passes the next aggregate is taken
      over exactly the truthy readings of the polls since the previous one,
      its own pass included. */
  lemma NextAggregateSamples(cfg: Config, f: Format, s: State, k0: Tick, ks: seq<Tick>, k1: Tick)
    requires ValidPeriods(cfg) && s.running
    requires Boundary(k0.time, cfg.storeTime) && Boundary(k1.time, cfg.storeTime)
    requires Healthy(cfg, [k0] + ks + [k1]) && NoAggregation(cfg, ks)
    ensures var r := Run(cfg, f, s, [k0] + ks);
      var samples := Readings(cfg, [k0] + ks);
      Step(cfg, f, r, k1).trace == r.trace
        + [StoreAggregate(samples, CedResult(samples, r.oneWire, k1.aggregateClock, k1.aggregateWriteOk))]
        + PollCalls(cfg, k1)
  {
    var all := [k0] + ks + [k1];
    assert Healthy(cfg, [k0] + ks) by {
      forall i | 0 <= i < |ks| + 1 ensures ([k0] + ks)[i] == all[i] {}
    }
    assert Boundary(k1.time, cfg.pollingTime) ==> |k1.snapshot.oneWire| > 0 by {
      assert all[|all| - 1] == k1;
    }
    WindowSinceAggregation(cfg, f, s, k0, ks);
    var r := Run(cfg, f, s, [k0] + ks);
    StepTrace(cfg, f, r, k1);
  }
}

=== FILE: rows.dfy ===
/** The tab-separated records the persister appends: the raw poll block of
    `store_data_csv`, the aggregate line of `store_ced_data_csv` and the
    event line of `store_event`, together with a reader that parses a block
    back into its sections. A file's content is modelled as its sequence of
    lines; every line is written followed by a newline. */
module Rows {
  import opened Wrappers
  import opened Text
  import opened Clock
  import opened Channels

  /** `str(round(x, 2))` and `str(round(sqrt(v), 2))`, which this model keeps
      abstract: `number` renders a reading and `stddev` renders the square root
      of a variance. */
  datatype Format = Format(number: real -> string, stddev: real -> string)

  /** Every rendering the format produces is a single plain field. */
  ghost predicate FormatPlain(f: Format) {
    forall x: real :: Plain(f.number(x)) && Plain(f.stddev(x))
  }

  /** One line of fields separated by tabs. */
  function Line(fields: seq<string>): string {
    Join(fields, Tab)
  }

  // ------------------------------------------------------------- raw block

  const DigitalHeading: string := "# digital inputs"
  const AnalogHeading: string := "# analog inputs"
  const RelayHeading: string := "# relay outputs"
  const OpenCollectorHeading: string := "# open collector outputs"
  const OneWireHeading: string := "# 1wire inputs"

  /** The field written for an analog or one-wire value: the rounded reading
      when it is truthy, the text `None` when it is `None` or zero. */
  function ValueText(v: Option<real>, f: Format): (r: string)
    ensures Truthy(v) ==> r == f.number(v.value)
    ensures !Truthy(v) ==> r == "None"
  {
    if Truthy(v) then f.number(v.value) else "None"
  }

  function DigitalFields(stamp: string, d: DigitalInput): seq<string> {
    [stamp, IntToString(d.id), ScalarText(d.status), ScalarText(d.statusEv), d.name]
  }

  function AnalogFields(stamp: string, a: AnalogInput, f: Format): seq<string> {
    [stamp, IntToString(a.id), ValueText(a.value, f), a.name]
  }

  function OutputFields(stamp: string, o: OutputChannel): seq<string> {
    [stamp, IntToString(o.id), ScalarText(o.status), o.name]
  }

  function OneWireFields(stamp: string, w: OneWireInput, f: Format): seq<string> {
    [stamp, IntToString(w.id), ValueText(w.value, f), w.name]
  }

  /** A heading line and the records below it. */
  datatype Section = Section(heading: string, rows: seq<seq<string>>)

  /** One record per channel of each category, all with the same stamp. */
  function DigitalSection(stamp: string, ds: seq<DigitalInput>): (r: Section)
    ensures r.heading == DigitalHeading && |r.rows| == |ds|
    ensures forall i :: 0 <= i < |ds| ==> r.rows[i] == DigitalFields(stamp, ds[i])
  {
    Section(DigitalHeading, seq(|ds|, i requires 0 <= i < |ds| => DigitalFields(stamp, ds[i])))
  }

  function AnalogSection(stamp: string, ains: seq<AnalogInput>, f: Format): (r: Section)
    ensures r.heading == AnalogHeading && |r.rows| == |ains|
    ensures forall i :: 0 <= i < |ains| ==> r.rows[i] == AnalogFields(stamp, ains[i], f)
  {
    Section(AnalogHeading, seq(|ains|, i requires 0 <= i < |ains| => AnalogFields(stamp, ains[i], f)))
  }

  function OutputSection(heading: string, stamp: string, os: seq<OutputChannel>): (r: Section)
    ensures r.heading == heading && |r.rows| == |os|
    ensures forall i :: 0 <= i < |os| ==> r.rows[i] == OutputFields(stamp, os[i])
  {
    Section(heading, seq(|os|, i requires 0 <= i < |os| => OutputFields(stamp, os[i])))
  }

  function OneWireSection(stamp: string, ws: seq<Option<OneWireInput>>, f: Format): (r: Section)
    requires AllPresent(ws)
    ensures r.heading == OneWireHeading && |r.rows| == |ws|
    ensures forall i :: 0 <= i < |ws| ==> r.rows[i] == OneWireFields(stamp, ws[i].value, f)
  {
    Section(OneWireHeading, seq(|ws|, i requires 0 <= i < |ws| => OneWireFields(stamp, ws[i].value, f)))
  }

  /** The five sections of a raw poll block in the order the code writes
      them, one record per channel; defined only when every one-wire entry is
      present (a `None` entry makes the code fail before anything is written). */
  function PollSections(t: DateTime, s: Snapshot, f: Format): (r: seq<Section>)
    requires AllPresent(s.oneWire)
    ensures |r| == 5
    ensures r[0].heading == DigitalHeading && |r[0].rows| == |s.digital|
    ensures r[1].heading == AnalogHeading && |r[1].rows| == |s.analog|
    ensures r[2].heading == RelayHeading && |r[2].rows| == |s.relays|
    ensures r[3].heading == OpenCollectorHeading && |r[3].rows| == |s.openCollectors|
    ensures r[4].heading == OneWireHeading && |r[4].rows| == |s.oneWire|
  {
    var stamp := SecondStamp(t);
    [ DigitalSection(stamp, s.digital),
      AnalogSection(stamp, s.analog, f),
      OutputSection(RelayHeading, stamp, s.relays),
      OutputSection(OpenCollectorHeading, stamp, s.openCollectors),
      OneWireSection(stamp, s.oneWire, f) ]
  }

  /** The lines of one section: the heading, then one line per record. */
  function SectionLines(sec: Section): (r: seq<string>)
    ensures |r| == |sec.rows| + 1 && r[0] == sec.heading
    ensures forall i :: 0 <= i < |sec.rows| ==> r[i + 1] == Line(sec.rows[i])
  {
    [sec.heading] + seq(|sec.rows|, i requires 0 <= i < |sec.rows| => Line(sec.rows[i]))
  }

  /** The lines of consecutive sections, in order. */
  function Render(secs: seq<Section>): seq<string>
    decreases |secs|
  {
    if |secs| == 0 then [] else SectionLines(secs[0]) + Render(secs[1..])
  }

  /** The text `store_data_csv` builds, as lines: `None` when a one-wire entry
      is missing and the code raises before writing. */
  function PollBlock(t: DateTime, s: Snapshot, f: Format): (r: Option<seq<string>>)
    ensures r.Some? <==> AllPresent(s.oneWire)
    ensures r.Some? ==> r.value == Render(PollSections(t, s, f))
  {
    if AllPresent(s.oneWire) then Some(Render(PollSections(t, s, f))) else None
  }

  // ---------------------------------------------------------------- reader

  /** A heading starts with `#`; a record starts with its timestamp. */
  predicate IsHeading(l: string) {
    |l| > 0 && l[0] == '#'
  }

  /** The end of the run of records that starts at line `i`: the index of
      the next heading, or the end of the block. */
  function RunEnd(ls: seq<string>, i: nat): (r: nat)
    requires i <= |ls|
    ensures i <= r <= |ls|
    ensures forall k :: i <= k < r ==> !IsHeading(ls[k])
    ensures r < |ls| ==> IsHeading(ls[r])
    decreases |ls| - i
  {
    if i < |ls| && !IsHeading(ls[i]) then RunEnd(ls, i + 1) else i
  }

  /** Record lines split at their tabs. */
  function Records(ls: seq<string>): (r: seq<seq<string>>)
    ensures |r| == |ls|
    ensures forall i :: 0 <= i < |ls| ==> r[i] == Split(ls[i], Tab)
  {
    seq(|ls|, i requires 0 <= i < |ls| => Split(ls[i], Tab))
  }

  /** The reader of a block of lines: every heading opens a section holding
      the records up to the next heading; records before the first heading go
      to a section with an empty heading. */
  function Parse(ls: seq<string>): seq<Section>
    decreases |ls|
  {
    if |ls| == 0 then []
    else if IsHeading(ls[0]) then
      var e := RunEnd(ls, 1);
      [Section(ls[0], Records(ls[1..e]))] + Parse(ls[e..])
    else
      var e := RunEnd(ls, 0);
      [Section("", Records(ls[..e]))] + Parse(ls[e..])
  }

  /** A record the reader can recover: at least one field, no field holding a
      tab or newline, and a first field that does not look like a heading. */
  predicate GoodRow(row: seq<string>) {
    && |row| >= 1
    && (forall j :: 0 <= j < |row| ==> Plain(row[j]))
    && |row[0]| > 0 && row[0][0] != '#'
  }

  predicate GoodSection(sec: Section) {
    && IsHeading(sec.heading)
    && (forall i :: 0 <= i < |sec.rows| ==> GoodRow(sec.rows[i]))
  }

  lemma LineOfGoodRow(row: seq<string>)
    requires GoodRow(row)
    ensures !IsHeading(Line(row))
    ensures Split(Line(row), Tab) == row
  {
    SplitJoin(row, Tab);
    assert forall j :: 0 <= j < |row| ==> Tab !in row[j] by {
      forall j | 0 <= j < |row| ensures Tab !in row[j] {
        assert Plain(row[j]);
      }
    }
  }

  /** Rendered sections start with a heading, unless there are none. */
  lemma RenderStart(secs: seq<Section>)
    requires |secs| > 0 && GoodSection(secs[0])
    ensures |Render(secs)| > 0 && IsHeading(Render(secs)[0])
  {
  }

  /** The records of a section run exactly to its end when a heading or the
      end of the block follows. */
  lemma {:induction false} RunOfSection(sec: Section, rest: seq<string>, i: nat)
    requires GoodSection(sec)
    requires |rest| == 0 || IsHeading(rest[0])
    requires 1 <= i <= |sec.rows| + 1
    ensures RunEnd(SectionLines(sec) + rest, i) == |sec.rows| + 1
    decreases |sec.rows| + 1 - i
  {
    var ls := SectionLines(sec) + rest;
    if i <= |sec.rows| {
      assert ls[i] == Line(sec.rows[i - 1]);
      LineOfGoodRow(sec.rows[i - 1]);
      RunOfSection(sec, rest, i + 1);
    } else {
      assert |rest| > 0 ==> ls[i] == rest[0];
    }
  }

  /** The record lines of a well-formed section read back as its records. */
  lemma RecordsOfSection(sec: Section)
    requires GoodSection(sec)
    ensures Records(SectionLines(sec)[1..]) == sec.rows
  {
    var ls := SectionLines(sec)[1..];
    var r := Records(ls);
    forall i | 0 <= i < |r| ensures r[i] == sec.rows[i] {
      LineOfGoodRow(sec.rows[i]);
    }
  }

  /** Reading rendered sections back gives exactly those sections: the same
      headings in the same order, and under each the same records with the
      same fields. */
  lemma {:induction false} ParseRender(secs: seq<Section>)
    requires forall i :: 0 <= i < |secs| ==> GoodSection(secs[i])
    ensures Parse(Render(secs)) == secs
    decreases |secs|
  {
    if |secs| > 0 {
      var sec := secs[0];
      var a := SectionLines(sec);
      var b := Render(secs[1..]);
      var ls := a + b;
      assert |b| == 0 || IsHeading(b[0]) by {
        if |secs| > 1 { RenderStart(secs[1..]); }
      }
      RunOfSection(sec, b, 1);
      assert ls[1..|a|] == a[1..];
      RecordsOfSection(sec);
      assert ls[|a|..] == b;
      ParseRender(secs[1..]);
      assert [sec] + secs[1..] == secs;
    }
  }

  /** A timestamp field as the stamps render: plain and starting with a digit. */
  predicate StampField(stamp: string) {
    Plain(stamp) && |stamp| > 0 && IsDigit(stamp[0])
  }

  lemma ValuePlain(v: Option<real>, f: Format)
    requires FormatPlain(f)
    ensures Plain(ValueText(v, f))
  {
    if Truthy(v) {
      assert Plain(f.number(v.value));
    }
  }

  lemma DigitalRowGood(stamp: string, d: DigitalInput)
    requires StampField(stamp) && Plain(d.name)
    ensures GoodRow(DigitalFields(stamp, d))
  {
    var row := DigitalFields(stamp, d);
    assert forall j :: 0 <= j < 5 ==> Plain(row[j]) by {
      assert Plain(row[0]) && Plain(row[1]) && Plain(row[2]) && Plain(row[3]) && Plain(row[4]);
    }
  }

  lemma AnalogRowGood(stamp: string, a: AnalogInput, f: Format)
    requires StampField(stamp) && Plain(a.name) && FormatPlain(f)
    ensures GoodRow(AnalogFields(stamp, a, f))
  {
    var row := AnalogFields(stamp, a, f);
    ValuePlain(a.value, f);
    assert forall j :: 0 <= j < 4 ==> Plain(row[j]) by {
      assert Plain(row[0]) && Plain(row[1]) && Plain(row[2]) && Plain(row[3]);
    }
  }

  lemma OutputRowGood(stamp: string, o: OutputChannel)
    requires StampField(stamp) && Plain(o.name)
    ensures GoodRow(OutputFields(stamp, o))
  {
    var row := OutputFields(stamp, o);
    assert forall j :: 0 <= j < 4 ==> Plain(row[j]) by {
      assert Plain(row[0]) && Plain(row[1]) && Plain(row[2]) && Plain(row[3]);
    }
  }

  lemma OneWireRowGood(stamp: string, w: OneWireInput, f: Format)
    requires StampField(stamp) && Plain(w.name) && FormatPlain(f)
    ensures GoodRow(OneWireFields(stamp, w, f))
  {
    var row := OneWireFields(stamp, w, f);
    ValuePlain(w.value, f);
    assert forall j :: 0 <= j < 4 ==> Plain(row[j]) by {
      assert Plain(row[0]) && Plain(row[1]) && Plain(row[2]) && Plain(row[3]);
    }
  }

  /** The five headings are single plain lines the reader recognises. */
  lemma HeadingsPlain()
    ensures Plain(DigitalHeading) && Plain(AnalogHeading) && Plain(RelayHeading)
    ensures Plain(OpenCollectorHeading) && Plain(OneWireHeading)
    ensures IsHeading(DigitalHeading) && IsHeading(AnalogHeading) && IsHeading(RelayHeading)
    ensures IsHeading(OpenCollectorHeading) && IsHeading(OneWireHeading)
  {
  }

  lemma DigitalSectionGood(stamp: string, ds: seq<DigitalInput>)
    requires StampField(stamp)
    requires forall i :: 0 <= i < |ds| ==> Plain(ds[i].name)
    ensures GoodSection(DigitalSection(stamp, ds))
  {
    HeadingsPlain();
    forall i | 0 <= i < |ds| ensures GoodRow(DigitalSection(stamp, ds).rows[i]) {
      DigitalRowGood(stamp, ds[i]);
    }
  }

  lemma AnalogSectionGood(stamp: string, ains: seq<AnalogInput>, f: Format)
    requires StampField(stamp) && FormatPlain(f)
    requires forall i :: 0 <= i < |ains| ==> Plain(ains[i].name)
    ensures GoodSection(AnalogSection(stamp, ains, f))
  {
    HeadingsPlain();
    forall i | 0 <= i < |ains| ensures GoodRow(AnalogSection(stamp, ains, f).rows[i]) {
      AnalogRowGood(stamp, ains[i], f);
    }
  }

  lemma OutputSectionGood(heading: string, stamp: string, os: seq<OutputChannel>)
    requires IsHeading(heading) && StampField(stamp)
    requires forall i :: 0 <= i < |os| ==> Plain(os[i].name)
    ensures GoodSection(OutputSection(heading, stamp, os))
  {
    forall i | 0 <= i < |os| ensures GoodRow(OutputSection(heading, stamp, os).rows[i]) {
      OutputRowGood(stamp, os[i]);
    }
  }

  lemma OneWireSectionGood(stamp: string, ws: seq<Option<OneWireInput>>, f: Format)
    requires AllPresent(ws) && StampField(stamp) && FormatPlain(f)
    requires forall i :: 0 <= i < |ws| ==> Plain(ws[i].value.name)
    ensures GoodSection(OneWireSection(stamp, ws, f))
  {
    HeadingsPlain();
    forall i | 0 <= i < |ws| ensures GoodRow(OneWireSection(stamp, ws, f).rows[i]) {
      OneWireRowGood(stamp, ws[i].value, f);
    }
  }

  /** Every record of the poll block is readable: its timestamp starts with a
      digit and all its fields are plain, given plain channel names and a
      plain number format. */
  lemma PollSectionsGood(t: DateTime, s: Snapshot, f: Format)
    requires AllPresent(s.oneWire) && NamesPlain(s) && FormatPlain(f)
    ensures var secs := PollSections(t, s, f);
      forall i :: 0 <= i < |secs| ==> GoodSection(secs[i])
  {
    var stamp := SecondStamp(t);
    SecondPlain(t);
    HeadingsPlain();
    DigitalSectionGood(stamp, s.digital);
    AnalogSectionGood(stamp, s.analog, f);
    OutputSectionGood(RelayHeading, stamp, s.relays);
    OutputSectionGood(OpenCollectorHeading, stamp, s.openCollectors);
    OneWireSectionGood(stamp, s.oneWire, f);
    var secs := PollSections(t, s, f);
    assert secs[0] == DigitalSection(stamp, s.digital);
    assert secs[4] == OneWireSection(stamp, s.oneWire, f);
  }

  /** The records of the poll block: five fields per digital input and four
      for the other categories, and for every analog or one-wire channel the
      rendered reading when it is truthy and `None` when it is not. */
  lemma PollSectionsShape(t: DateTime, s: Snapshot, f: Format)
    requires AllPresent(s.oneWire)
    ensures var secs := PollSections(t, s, f);
      && (forall j :: 0 <= j < |s.digital| ==> |secs[0].rows[j]| == 5)
      && (forall j :: 0 <= j < |s.analog| ==> |secs[1].rows[j]| == 4)
      && (forall j :: 0 <= j < |s.relays| ==> |secs[2].rows[j]| == 4)
      && (forall j :: 0 <= j < |s.openCollectors| ==> |secs[3].rows[j]| == 4)
      && (forall j :: 0 <= j < |s.oneWire| ==> |secs[4].rows[j]| == 4)
      && (forall j :: 0 <= j < |s.analog| ==>
            secs[1].rows[j][2] == (if Truthy(s.analog[j].value) then f.number(s.analog[j].value.value) else "None"))
      && (forall j :: 0 <= j < |s.oneWire| ==>
            var v := s.oneWire[j].value.value;
            secs[4].rows[j][2] == (if Truthy(v) then f.number(v.value) else "None"))
  {
  }

  /** A reader of the raw block finds the five headings in the order
      digital, analog, relay, open collector, 1wire, and under each exactly
      the records of the channels of that category, field for field. */
  lemma PollBlockReadsBack(t: DateTime, s: Snapshot, f: Format)
    requires AllPresent(s.oneWire) && NamesPlain(s) && FormatPlain(f)
    ensures PollBlock(t, s, f).Some?
    ensures Parse(PollBlock(t, s, f).value) == PollSections(t, s, f)
  {
    PollSectionsGood(t, s, f);
    ParseRender(PollSections(t, s, f));
  }

  /** Every line of the block is free of newlines, so writing the lines one
      after another, each followed by a newline, gives a text whose lines are
      exactly these. */
  lemma PollBlockLines(t: DateTime, s: Snapshot, f: Format)
    requires AllPresent(s.oneWire) && NamesPlain(s) && FormatPlain(f)
    ensures PollBlock(t, s, f).Some?
    ensures forall i :: 0 <= i < |PollBlock(t, s, f).value| ==>
      Newline !in PollBlock(t, s, f).value[i]
  {
    PollSectionsGood(t, s, f);
    HeadingsPlain();
    var secs := PollSections(t, s, f);
    assert forall i :: 0 <= i < |secs| ==> Plain(secs[i].heading) by {
      assert Plain(secs[0].heading) && Plain(secs[1].heading) && Plain(secs[2].heading);
      assert Plain(secs[3].heading) && Plain(secs[4].heading);
    }
    RenderLines(secs);
  }

  lemma {:induction false} RenderLines(secs: seq<Section>)
    requires forall i :: 0 <= i < |secs| ==> GoodSection(secs[i]) && Plain(secs[i].heading)
    ensures forall i :: 0 <= i < |Render(secs)| ==> Newline !in Render(secs)[i]
    decreases |secs|
  {
    if |secs| > 0 {
      var sec := secs[0];
      RenderLines(secs[1..]);
      forall i | 0 <= i < |sec.rows| ensures Newline !in Line(sec.rows[i]) {
        JoinKeepsLine(sec.rows[i]);
      }
      var ls := SectionLines(sec);
      var all := Render(secs);
      forall i | 0 <= i < |all| ensures Newline !in all[i] {
        if i >= |ls| {
          assert all[i] == Render(secs[1..])[i - |ls|];
        } else if i > 0 {
          assert all[i] == Line(sec.rows[i - 1]);
        }
      }
    }
  }

  // ---------------------------------------------------- aggregate and event

  /** The aggregate record of one window: minute-truncated time, database id,
      mean, minimum, maximum and variance (whose square root is written). */
  datatype Aggregate = Aggregate(
    time: DateTime, dbId: int, mean: real, min: real, max: real, variance: real)

  function AggregateFields(a: Aggregate, f: Format): (r: seq<string>)
    ensures |r| == 6
  {
    [MinuteStamp(a.time), IntToString(a.dbId), f.number(a.mean), f.number(a.min),
     f.number(a.max), f.stddev(a.variance)]
  }

  /** The event record: microsecond timestamp, id, event status, name. */
  function EventFields(t: DateTime, d: DigitalInput): (r: seq<string>)
    ensures |r| == 4
  {
    [MicroStamp(t), IntToString(d.id), ScalarText(d.statusEv), d.name]
  }

  /** A readable record is a single line that splits back into its fields. */
  lemma GoodRowLine(row: seq<string>)
    requires GoodRow(row)
    ensures Split(Line(row), Tab) == row
    ensures Newline !in Line(row)
  {
    LineOfGoodRow(row);
    JoinKeepsLine(row);
  }

  lemma SixFieldLine(a: string, b: string, c: string, d: string, e: string, g: string)
    requires StampField(a) && Plain(b) && Plain(c) && Plain(d) && Plain(e) && Plain(g)
    ensures var row := [a, b, c, d, e, g];
      Split(Line(row), Tab) == row && Newline !in Line(row)
  {
    var row := [a, b, c, d, e, g];
    assert forall j :: 0 <= j < 6 ==> Plain(row[j]);
    GoodRowLine(row);
  }

  lemma FourFieldLine(a: string, b: string, c: string, d: string)
    requires StampField(a) && Plain(b) && Plain(c) && Plain(d)
    ensures var row := [a, b, c, d];
      Split(Line(row), Tab) == row && Newline !in Line(row)
  {
    var row := [a, b, c, d];
    assert forall j :: 0 <= j < 4 ==> Plain(row[j]);
    GoodRowLine(row);
  }

  /** The aggregate line reads back as its six fields. */
  lemma AggregateReadsBack(a: Aggregate, f: Format)
    requires FormatPlain(f)
    ensures Split(Line(AggregateFields(a, f)), Tab) == AggregateFields(a, f)
    ensures Newline !in Line(AggregateFields(a, f))
  {
    StampsArePlain(a.time);
    SixFieldLine(MinuteStamp(a.time), IntToString(a.dbId), f.number(a.mean), f.number(a.min),
      f.number(a.max), f.stddev(a.variance));
  }

  /** The event line reads back as its four fields, given a plain name. */
  lemma EventReadsBack(t: DateTime, d: DigitalInput)
    requires Plain(d.name)
    ensures Split(Line(EventFields(t, d)), Tab) == EventFields(t, d)
    ensures Newline !in Line(EventFields(t, d))
  {
    StampsArePlain(t);
    FourFieldLine(MicroStamp(t), IntToString(d.id), ScalarText(d.statusEv), d.name);
  }
}

=== FILE: stats.dfy ===
/** The window statistics of the aggregator: `_mean`, `_stddev` (as a
    variance, since the square root is left to the number formatter), and
    the builtin `min`/`max` the aggregate row uses. */
module Stats {
  import opened Wrappers

  /** `float(None)` raised by `_mean` on an empty list, and the division by
      `len(lst) - 1 == 0` in `_stddev` on a one-sample list. */
  datatype StatsError = NoSamples | DivisionByZero

  function Sum(s: seq<real>): real
    decreases |s|
  {
    if |s| == 0 then 0.0 else Sum(s[..|s| - 1]) + s[|s| - 1]
  }

  function Square(x: real): real {
    x * x
  }

  function SumOfSquares(s: seq<real>): real
    decreases |s|
  {
    if |s| == 0 then 0.0 else SumOfSquares(s[..|s| - 1]) + Square(s[|s| - 1])
  }

  /** Python's `min(lst)`: a member of the list no larger than any member. */
  function Min(s: seq<real>): (r: real)
    requires |s| > 0
    ensures r in s
    ensures forall i :: 0 <= i < |s| ==> r <= s[i]
    decreases |s|
  {
    if |s| == 1 then s[0]
    else
      var m := Min(s[..|s| - 1]);
      assert forall i :: 0 <= i < |s| - 1 ==> s[i] == s[..|s| - 1][i];
      if s[|s| - 1] < m then s[|s| - 1] else m
  }

  /** Python's `max(lst)`: a member of the list no smaller than any member. */
  function Max(s: seq<real>): (r: real)
    requires |s| > 0
    ensures r in s
    ensures forall i :: 0 <= i < |s| ==> s[i] <= r
    decreases |s|
  {
    if |s| == 1 then s[0]
    else
      var m := Max(s[..|s| - 1]);
      assert forall i :: 0 <= i < |s| - 1 ==> s[i] == s[..|s| - 1][i];
      if s[|s| - 1] > m then s[|s| - 1] else m
  }

  lemma ScaleLe(c: real, a: real, b: real)
    requires c >= 0.0 && a <= b
    ensures c * a <= c * b
  {}

  /** A square is never negative, and is positive unless its root is zero. */
  lemma SquareSign(d: real)
    ensures Square(d) >= 0.0
    ensures d != 0.0 ==> Square(d) > 0.0
    ensures d == 0.0 ==> Square(d) == 0.0
  {
    if d < 0.0 {
      calc { Square(d); == d * d; > 0.0; }
    } else if d > 0.0 {
      calc { Square(d); == d * d; > 0.0; }
    }
  }

  /** `x` added to itself `n` times, keeping the inductive proofs linear. */
  function Times(n: nat, x: real): real
    decreases n
  {
    if n == 0 then 0.0 else Times(n - 1, x) + x
  }

  lemma {:induction false} TimesIsProduct(n: nat, x: real)
    ensures Times(n, x) == n as real * x
    decreases n
  {
    if n > 0 {
      TimesIsProduct(n - 1, x);
      assert n as real * x == (n - 1) as real * x + x;
    }
  }

  lemma {:induction false} TimesMonotone(n: nat, a: real, b: real)
    requires a <= b
    ensures Times(n, a) <= Times(n, b)
    decreases n
  {
    if n > 0 {
      TimesMonotone(n - 1, a, b);
    }
  }

  /** The sum lies between `n * min` and `n * max`. */
  lemma {:induction false} SumBetween(s: seq<real>)
    requires |s| > 0
    ensures Times(|s|, Min(s)) <= Sum(s) <= Times(|s|, Max(s))
    decreases |s|
  {
    if |s| == 1 {
      assert s[..0] == [];
    } else {
      var init := s[..|s| - 1];
      var x := s[|s| - 1];
      SumBetween(init);
      assert Min(s) <= Min(init) by {
        assert Min(init) in s;
      }
      assert Max(init) <= Max(s) by {
        assert Max(init) in s;
      }
      TimesMonotone(|init|, Min(s), Min(init));
      TimesMonotone(|init|, Max(init), Max(s));
    }
  }

  lemma NonNegativeQuotient(a: real, n: real)
    requires a >= 0.0 && n > 0.0
    ensures a / n >= 0.0 && a / n * n == a
  {}

  lemma QuotientBetween(lo: real, sum: real, hi: real, n: real)
    requires n > 0.0 && n * lo <= sum <= n * hi
    ensures lo <= sum / n <= hi
    ensures sum / n * n == sum
  {
    var q := sum / n;
    assert q * n == sum;
    if q < lo {
      ScaleLe(n, q, lo);
    }
    if q > hi {
      ScaleLe(n, hi, q);
    }
  }

  lemma QuotientOfTimes(k: nat, lo: real, t: real, hi: real)
    requires k > 0 && Times(k, lo) <= t <= Times(k, hi)
    ensures lo <= t / k as real <= hi
  {
    TimesIsProduct(k, lo);
    TimesIsProduct(k, hi);
    QuotientBetween(lo, t, hi, k as real);
  }

  /** `_mean(lst)`: `sum(lst) / len(lst)`, failing on an empty list. */
  function Mean(s: seq<real>): (r: Result<real, StatsError>)
    ensures |s| == 0 <==> r == Failure(NoSamples)
    ensures r.Success? ==> r.value * |s| as real == Sum(s)
  {
    if |s| == 0 then Failure(NoSamples)
    else Success(Sum(s) / |s| as real)
  }

  /** The mean always lies between the window's minimum and maximum. */
  lemma MeanBetween(s: seq<real>)
    requires |s| > 0
    ensures Mean(s).Success? && Min(s) <= Mean(s).value <= Max(s)
  {
    SumBetween(s);
    QuotientOfTimes(|s|, Min(s), Sum(s), Max(s));
  }

  /** Σ (x - m)² over the window, the quantity `_stddev` accumulates. */
  function SquaredDeviations(s: seq<real>, m: real): real
    decreases |s|
  {
    if |s| == 0 then 0.0
    else SquaredDeviations(s[..|s| - 1], m) + Square(s[|s| - 1] - m)
  }

  /** The loop of `_stddev`: `data_sum += pow(item - data_mean, 2)` over the list. */
  method AccumulateSquaredDeviations(lst: seq<real>, mean: real) returns (dataSum: real)
    ensures dataSum == SquaredDeviations(lst, mean)
  {
    dataSum := 0.0;
    var i := 0;
    while i < |lst|
      invariant 0 <= i <= |lst|
      invariant dataSum == SquaredDeviations(lst[..i], mean)
    {
      assert lst[..i + 1][..i] == lst[..i];
      dataSum := dataSum + Square(lst[i] - mean);
      i := i + 1;
    }
    assert lst[..|lst|] == lst;
  }

  /** `_stddev(lst)` squared: the Bessel-corrected sample variance
      Σ (x - mean)² / (n - 1). Fails like `_mean` on an empty list and with a
      division by zero on a single sample. */
  function Variance(s: seq<real>): (r: Result<real, StatsError>)
    ensures |s| == 0 ==> r == Failure(NoSamples)
    ensures |s| == 1 ==> r == Failure(DivisionByZero)
    ensures |s| >= 2 ==> r.Success? && r.value >= 0.0
    ensures r.Success? ==>
      Mean(s).Success? && r.value * (|s| - 1) as real == SquaredDeviations(s, Mean(s).value)
  {
    match Mean(s)
    case Failure(e) => Failure(e)
    case Success(m) =>
      if |s| - 1 == 0 then Failure(DivisionByZero)
      else
        var v := SquaredDeviations(s, m) / (|s| - 1) as real;
        assert v >= 0.0 && v * (|s| - 1) as real == SquaredDeviations(s, m) by {
          DeviationsNonNegative(s, m);
          NonNegativeQuotient(SquaredDeviations(s, m), (|s| - 1) as real);
        }
        Success(v)
  }

  lemma SquareOfDifference(x: real, m: real)
    ensures Square(x - m) == Square(x) - 2.0 * m * x + Square(m)
  {}

  lemma Distribute(m: real, c: real, x: real)
    ensures 2.0 * m * (c + x) == 2.0 * m * c + 2.0 * m * x
  {}

  lemma CountUp(k: real, n: real, q: real)
    requires n == k + 1.0
    ensures n * q == k * q + q
  {}

  /** Expanding the square: Σ (x - m)² = Σ x² - 2 m Σ x + n m². */
  lemma {:induction false} ExpandSquaredDeviations(s: seq<real>, m: real)
    ensures SquaredDeviations(s, m)
         == SumOfSquares(s) - 2.0 * m * Sum(s) + |s| as real * Square(m)
    decreases |s|
  {
    if |s| > 0 {
      var init := s[..|s| - 1];
      var x := s[|s| - 1];
      ExpandSquaredDeviations(init, m);
      SquareOfDifference(x, m);
      Distribute(m, Sum(init), x);
      CountUp(|init| as real, |s| as real, Square(m));
    }
  }

  /** A sum of squares is never negative. */
  lemma {:induction false} DeviationsNonNegative(s: seq<real>, m: real)
    ensures SquaredDeviations(s, m) >= 0.0
    decreases |s|
  {
    if |s| > 0 {
      DeviationsNonNegative(s[..|s| - 1], m);
      SquareSign(s[|s| - 1] - m);
    }
  }

  lemma OnePassAlgebra(sq: real, t: real, n: real, m: real, dev: real)
    requires m * n == t
    requires dev == sq - 2.0 * m * t + n * Square(m)
    ensures n * dev == n * sq - t * t
  {
    assert n * dev == n * sq - 2.0 * (m * n) * t + (m * n) * (m * n);
  }

  /** The one-pass formula, an independent definition of the numerator of the
      variance: around the mean m (n m = Σ x), n Σ (x - m)² = n Σ x² - (Σ x)². */
  lemma OnePassDeviations(s: seq<real>, m: real)
    requires m * |s| as real == Sum(s)
    ensures |s| as real * SquaredDeviations(s, m)
         == |s| as real * SumOfSquares(s) - Sum(s) * Sum(s)
  {
    ExpandSquaredDeviations(s, m);
    OnePassAlgebra(SumOfSquares(s), Sum(s), |s| as real, m, SquaredDeviations(s, m));
  }

  lemma ZeroSum(a: real, dd: real, d: real)
    requires a >= 0.0 && dd >= 0.0 && (d != 0.0 ==> dd > 0.0) && (d == 0.0 ==> dd == 0.0)
    ensures a + dd == 0.0 <==> a == 0.0 && d == 0.0
  {}

  /** The squared deviations vanish exactly when every sample equals the centre. */
  lemma {:induction false} DeviationsZero(s: seq<real>, m: real)
    ensures SquaredDeviations(s, m) == 0.0 <==> forall i :: 0 <= i < |s| ==> s[i] == m
    decreases |s|
  {
    if |s| > 0 {
      var init := s[..|s| - 1];
      var d := s[|s| - 1] - m;
      DeviationsZero(init, m);
      DeviationsNonNegative(init, m);
      SquareSign(d);
      ZeroSum(SquaredDeviations(init, m), Square(d), d);
      assert forall i :: 0 <= i < |s| - 1 ==> s[i] == init[i];
      assert (forall i :: 0 <= i < |s| ==> s[i] == m)
         <==> (forall i :: 0 <= i < |init| ==> init[i] == m) && s[|s| - 1] == m;
    }
  }

  /** The variance is zero exactly for a constant window. */
  lemma ZeroVarianceIffConstant(s: seq<real>)
    requires |s| >= 2
    ensures Variance(s).Success?
    ensures Variance(s).value == 0.0 <==> forall i :: 0 <= i < |s| ==> s[i] == s[0]
  {
    var m := Mean(s).value;
    DeviationsZero(s, m);
    if forall i :: 0 <= i < |s| ==> s[i] == s[0] {
      MeanBetween(s);
      assert Min(s) == s[0] && Max(s) == s[0];
    }
  }

  /** The window of two polls reading 20.0 and 22.0: mean 21, min 20, max 22,
      variance 2 (a standard deviation of about 1.41). */
  lemma TwoSampleWindow()
    ensures Mean([20.0, 22.0]) == Success(21.0)
    ensures Min([20.0, 22.0]) == 20.0 && Max([20.0, 22.0]) == 22.0
    ensures Variance([20.0, 22.0]) == Success(2.0)
  {
    var s := [20.0, 22.0];
    assert s[..1] == [20.0];
    assert Sum(s) == 42.0;
    assert SquaredDeviations(s, 21.0) == 2.0;
  }
}

=== FILE: text.dfy ===
/** Character-level helpers: tab/newline separated records and the decimal
    rendering Python's `str(int)` and `strftime` produce. */
module Text {

  const Tab: char := '\t'
  const Newline: char := '\n'

  /** A string that can sit inside one field of one line. */
  predicate Plain(s: string) {
    Tab !in s && Newline !in s
  }

  /** `sep.join(parts)` */
  function Join(parts: seq<string>, sep: char): string
    decreases |parts|
  {
    if |parts| == 0 then ""
    else if |parts| == 1 then parts[0]
    else parts[0] + [sep] + Join(parts[1..], sep)
  }

  /** `s.split(sep)`: the pieces between separators; always at least one. */
  function Split(s: string, sep: char): (r: seq<string>)
    ensures |r| >= 1
    ensures forall i :: 0 <= i < |r| ==> sep !in r[i]
    decreases |s|
  {
    if |s| == 0 then [""]
    else
      var rest := Split(s[1..], sep);
      if s[0] == sep then [""] + rest
      else [[s[0]] + rest[0]] + rest[1..]
  }

  /** Splitting a string and joining the pieces back gives the string. */
  lemma {:induction false} JoinSplit(s: string, sep: char)
    ensures Join(Split(s, sep), sep) == s
    decreases |s|
  {
    if |s| > 0 {
      var rest := Split(s[1..], sep);
      JoinSplit(s[1..], sep);
      if s[0] == sep {
        assert Split(s, sep) == [""] + rest;
        assert Join([""] + rest, sep) == "" + [sep] + Join(rest, sep) by {
          assert ([""] + rest)[1..] == rest;
        }
        assert [sep] + s[1..] == s;
      } else {
        var r := Split(s, sep);
        assert r == [[s[0]] + rest[0]] + rest[1..];
        if |rest| == 1 {
          assert Join(r, sep) == [s[0]] + rest[0];
          assert Join(rest, sep) == rest[0];
        } else {
          assert r[1..] == rest[1..];
          assert Join(r, sep) == [s[0]] + rest[0] + [sep] + Join(rest[1..], sep);
          assert Join(rest, sep) == rest[0] + [sep] + Join(rest[1..], sep);
        }
        assert [s[0]] + s[1..] == s;
      }
    }
  }

  lemma {:induction false} SplitWithout(p: string, sep: char)
    requires sep !in p
    ensures Split(p, sep) == [p]
    decreases |p|
  {
    if |p| > 0 {
      SplitWithout(p[1..], sep);
      assert [p[0]] + p[1..] == p;
    }
  }

  lemma {:induction false} SplitAfter(p: string, sep: char, t: string)
    requires sep !in p
    ensures Split(p + [sep] + t, sep) == [p] + Split(t, sep)
    decreases |p|
  {
    var s := p + [sep] + t;
    if |p| == 0 {
      assert s[1..] == t;
    } else {
      assert s[1..] == p[1..] + [sep] + t;
      SplitAfter(p[1..], sep, t);
      assert [p[0]] + p[1..] == p;
    }
  }

  /** Joining separator-free pieces and splitting again recovers the pieces,
      so a reader of a line gets back exactly the fields that were written. */
  lemma {:induction false} SplitJoin(parts: seq<string>, sep: char)
    requires |parts| >= 1
    requires forall i :: 0 <= i < |parts| ==> sep !in parts[i]
    ensures Split(Join(parts, sep), sep) == parts
    decreases |parts|
  {
    if |parts| == 1 {
      SplitWithout(parts[0], sep);
    } else {
      SplitAfter(parts[0], sep, Join(parts[1..], sep));
      SplitJoin(parts[1..], sep);
      assert [parts[0]] + parts[1..] == parts;
    }
  }

  /** A tab-joined line of plain fields is itself free of newlines. */
  lemma {:induction false} JoinKeepsLine(parts: seq<string>)
    requires forall i :: 0 <= i < |parts| ==> Plain(parts[i])
    ensures Newline !in Join(parts, Tab)
    decreases |parts|
  {
    if |parts| >= 2 {
      JoinKeepsLine(parts[1..]);
    }
  }

  // ---------------------------------------------------------------- digits

  predicate IsDigit(c: char) {
    '0' <= c <= '9'
  }

  predicate AllDigits(s: string) {
    forall i :: 0 <= i < |s| ==> IsDigit(s[i])
  }

  function DigitChar(d: nat): (c: char)
    requires d < 10
    ensures IsDigit(c) && (c as int) - ('0' as int) == d
  {
    "0123456789"[d]
  }

  /** Reads a string of decimal digits as a number (the inverse direction). */
  function DigitsValue(s: string): nat
    requires AllDigits(s)
    decreases |s|
  {
    if |s| == 0 then 0
    else DigitsValue(s[..|s| - 1]) * 10 + ((s[|s| - 1] as int) - ('0' as int))
  }

  function Pow10(n: nat): (r: nat)
    ensures r >= 1
  {
    if n == 0 then 1 else 10 * Pow10(n - 1)
  }

  /** `str(n)` for a non-negative int: shortest decimal, no leading zero. */
  function NatToString(n: nat): (r: string)
    ensures |r| >= 1 && AllDigits(r)
    ensures r[0] == '0' ==> n == 0 && |r| == 1
    decreases n
  {
    if n < 10 then [DigitChar(n)]
    else NatToString(n / 10) + [DigitChar(n % 10)]
  }

  /** Reading the decimal rendering back gives the number. */
  lemma {:induction false} NatToStringValue(n: nat)
    ensures DigitsValue(NatToString(n)) == n
    decreases n
  {
    if n >= 10 {
      var r := NatToString(n);
      assert r[..|r| - 1] == NatToString(n / 10);
      NatToStringValue(n / 10);
    }
  }

  /** A zero-padded field of exactly `width` digits, as `%02d`, `%04d`, `%06d`. */
  function Padded(n: nat, width: nat): (r: string)
    requires n < Pow10(width)
    ensures |r| == width && AllDigits(r)
    decreases width
  {
    if width == 0 then ""
    else Padded(n / 10, width - 1) + [DigitChar(n % 10)]
  }

  /** Reading a padded field back gives the number. */
  lemma {:induction false} PaddedValue(n: nat, width: nat)
    requires n < Pow10(width)
    ensures DigitsValue(Padded(n, width)) == n
    decreases width
  {
    if width > 0 {
      var r := Padded(n, width);
      assert r[..|r| - 1] == Padded(n / 10, width - 1);
      PaddedValue(n / 10, width - 1);
    }
  }

  /** `str(i)` for any int: an optional minus sign, then the digits of |i|. */
  function IntToString(i: int): (r: string)
    ensures Plain(r) && |r| >= 1
    ensures (r[0] == '-') <==> i < 0
    ensures i >= 0 ==> r == NatToString(i)
    ensures i < 0 ==> r[1..] == NatToString(-i)
  {
    if i < 0 then
      var r := "-" + NatToString(-i);
      assert r[1..] == NatToString(-i);
      r
    else NatToString(i)
  }

  /** `int(str(i)) == i`: the rendering of an id can be read back. */
  lemma IntToStringValue(i: int)
    ensures var r := IntToString(i);
      if r[0] == '-' then AllDigits(r[1..]) && -(DigitsValue(r[1..]) as int) == i
      else AllDigits(r) && DigitsValue(r) == i
  {
    if i < 0 { NatToStringValue(-i); } else { NatToStringValue(i); }
  }
}

=== FILE: wrappers.dfy ===
/** Failure-carrying values used throughout the model: a Python `None`
    becomes `Option.None`, a caught exception becomes `Result.Failure`. */
module Wrappers {

  datatype Option<+T> = None | Some(value: T)

  datatype Result<+T, +E> = Success(value: T) | Failure(error: E)
}
